=== FILE: README.md ===
# Chinese four-character word guessing game — Dafny model

The game asks the player to guess a four-character Chinese word. Each guess
is scored position by position on three levels: the character, each letter
of its pinyin, and its tone. Each level gets blue (same position), yellow
(somewhere else in the target) or an "absent" colour. The server (`app.py`)
holds the session and scores guesses. A console version (`wordle_game.py`)
carries a near copy of the same rules and prints coloured squares. The
browser script (`static/js/script.js`) checks input, draws the feedback and
keeps a small session record.

The model is functional. Immutable datatypes stand for the character
record, the colours, the feedback record and the sessions. Pure functions
cover tone extraction, comparison, validation and rendering. Where the
source loops, a method runs the same loop and is proved equal to a direct
reference definition.

| file | module | models |
|---|---|---|
| `outcomes.dfy` | `Outcomes` | `Option` / `Result` wrappers |
| `decimal.dfy` | `Decimal` | decimal spelling of counters in f-strings and template literals |
| `pinyin.dfy` | `Pinyin` | `CharacterInfo`, `ToneExtractor.extract_tone`, `get_character_info`, `process_word` (both Python files) |
| `feedback.dfy` | `Feedback` | `compare_words` of both Python files, as one definition with a `Variant` for the absent colour |
| `web_game.dfy` | `WebGame` | `WordleGameWeb`: word bank, `start_new_game`, `make_guess` |
| `console_display.dfy` | `ConsoleDisplay` | `display_result` as a line builder |
| `console_game.dfy` | `ConsoleGame` | `WordleGame`: word bank, `start_new_game`, `make_guess` |
| `client_text.dfy` | `JsText` | UTF-16 strings, `trim`, the CJK filter of script.js |
| `client_input.dfy` | `GuessInput` | the checks before a guess is sent, the live preview slots |
| `client_render.dfy` | `FeedbackView` | `setCharBlockColor`, the tone text of `createCharBlock` |
| `client_session.dfy` | `Session` | `startNewGame`'s state updates, `updateAttemptInfo` |
| `agreement.dfy` | `Agreement` | how script.js's drawing matches the server's verdict |

Modelling choices:

- Python strings are Dafny `string`s, one `char` per code point.
- JavaScript strings are `seq<CodeUnit>`, one element per UTF-16 code
  unit. That is what `length`, indexing and script.js's regular expression
  `/[^\u4e00-\u9fa5]/g` work on.
- The pinyin library is a parameter, `lookup: (char, Style) -> seq<seq<string>>`.
  It returns a list of readings per character, as the library does. Only
  the first alternative of the first reading is used, and "" when there is
  none. No property depends on what it returns.
- `random.choice` over the word bank is an index parameter `pick`.

## Model

| member | source | states |
|---|---|---|
| `Pinyin.ExtractTone` | app.py:23-27 | the result is "" exactly when the input holds no digit 1-4; otherwise it is that digit alone, taken from the earliest position holding one |
| `Pinyin.ExtractToneFirst` | wordle_game.py:18-24 | a tone digit preceded only by non-tone characters is the tone found, whatever follows it |
| `Pinyin.ExtractToneIdempotent` | app.py:25-27 | extracting from an extracted tone gives the same tone |
| `Pinyin.CharacterInfoOf` | app.py:29-40 | the record keeps the character, takes the first plain reading (or "") as pinyin, and takes as tone the tone extracted from the first numbered reading, always "" or one digit 1-4 |
| `Pinyin.CharacterToneFromReading` | app.py:35-38 | a numbered reading whose first tone digit is d (as in "hao3") gives the character tone d |
| `Pinyin.CharacterToneNeutral` | app.py:35-38 | a numbered reading with no tone digit, or no reading at all, gives the empty tone |
| `Pinyin.ProcessWord` | app.py:42-47 | succeeds exactly for four-character words; the records spell the word back in order and carry well-formed tones |
| `Feedback.ScanLetter` | app.py:104-122 | the source's two scans give the same colour as the direct check: blue iff the letter equals the same-index letter of the same-position target pinyin, else yellow iff the letter occurs in any target pinyin, else the absent colour |
| `Feedback.CompareWords` | app.py:83-135 | one entry per guess position carrying the guess's own character, pinyin and tone; as many pinyin colours as letters and exactly one tone colour; character blue iff same character at that position, yellow iff different there but present in the target, else absent; tone blue iff equal to the tone at that position (the empty tone included), yellow iff among the target tones, else absent |
| `Feedback.EntryIsLocal` | app.py:89-133 | the feedback of position i depends only on the guess at i and the target |
| `Feedback.RepeatsAreNotCounted` | app.py:97-100 | a character guessed twice is marked at both positions even when the target holds it once |
| `Feedback.ConsoleAbsentIsWhite` | wordle_game.py:83-125 | in the console copy, character, letter and tone colours are only blue, yellow or white |
| `Feedback.SelfCompareAllBlue` | app.py:89-133 | comparing a word's records with themselves colours everything blue |
| `Feedback.CharsBlueIffSameWord` | app.py:96-102 | all character colours are blue exactly when the guessed word equals the target word |
| `WebGame.WordBankWellFormed` | app.py:59-73 | the web bank holds 26 words, each of four characters |
| `WebGame.NewGame` | app.py:50-57 | a new session has no attempts, is neither over nor won, and has no target and no history |
| `WebGame.StartNewGame` | app.py:75-81 | the target is the picked bank word, and splitting it succeeds with four records; attempts, flags and history are reset; the budget is kept |
| `WebGame.MakeGuess` | app.py:137-204 | a finished game refuses and changes nothing; a wrong length refuses before counting; otherwise attempts rise by one; success appends exactly one history entry; the target word wins and ends the game even on the last attempt; otherwise reaching the budget loses with the target's four records revealed, and the game continues only with remaining = budget - attempts > 0; an answer ends the game exactly when it is a win or a loss; a four-character guess in a running game is refused only as a processing failure, before a game is started |
| `WebGame.RouteNewGame` | app.py:214-218 | the game the new-game route stores has the default budget of fifteen, no attempts and no history, runs on the picked bank word, and satisfies the session invariant |
| `WebGame.StartNewGameValid` | app.py:75-81 | a started game with a positive budget satisfies the session invariant |
| `WebGame.MakeGuessPreservesValid` | app.py:137-201 | a guess keeps the invariant: attempts within the budget, below it while the game runs, a win only in a finished game, one history entry per attempt |
| `WebGame.AttemptsNeverExceedMax` | app.py:144-201 | after starting a game, no sequence of guesses takes the attempt count past the budget |
| `WebGame.OverIsFinal` | app.py:138-139 | once the game is over, any sequence of guesses leaves the session unchanged |
| `WebGame.WinIffAllCharactersBlue` | app.py:158-170 | in a started game an accepted guess wins exactly when all its character colours are blue, and a win is blue everywhere |
| `ConsoleDisplay.Marker` | wordle_game.py:139-144 | the blue square is used iff the colour is blue and the yellow square iff it is yellow; anything else, including no colour, gets the white square |
| `ConsoleDisplay.PinyinPiece` | wordle_game.py:152-162 | each letter appears exactly once, right after one marker, and letters past the colour list get the white square |
| `ConsoleDisplay.MarkLetters` | wordle_game.py:152-162 | the source's letter loop builds exactly the marked pinyin |
| `ConsoleDisplay.LettersOfPinyinPiece` | wordle_game.py:152-162 | removing the markers from a marked pinyin gives the pinyin back |
| `ConsoleDisplay.PinyinLine` | wordle_game.py:147-165 | the source's loop joins the marked pinyins with exactly one space between neighbours and none after the last |
| `ConsoleDisplay.ToneLine` | wordle_game.py:167-184 | the source's loop joins the marked tones the same way, each marked from its first colour only |
| `ConsoleDisplay.ChineseLine` | wordle_game.py:134-145 | the source's loop concatenates the marked characters with no separator |
| `ConsoleDisplay.DisplayResult` | wordle_game.py:131-184 | the four printed lines are the header with the attempt number and the guess, then the character, pinyin and tone lines |
| `ConsoleDisplay.SplitJoin` | wordle_game.py:163-164 | splitting a space-joined line at its spaces gives back the pieces when none contains a space |
| `ConsoleDisplay.PinyinLineDecodes` | wordle_game.py:148-165 | the pinyin line splits into one piece per entry whose letters are that entry's pinyin |
| `ConsoleDisplay.ToneLineDecodes` | wordle_game.py:168-184 | the tone line splits into one piece per entry: the marker of the first tone colour (white when there is none) followed by the tone |
| `ConsoleGame.WordBankWellFormed` | wordle_game.py:58-64 | the console bank holds 16 words, each of four characters |
| `ConsoleGame.NewGame` | wordle_game.py:50-56 | a new console game allows six attempts and starts with no attempts, not over, not won |
| `ConsoleGame.StartNewGame` | wordle_game.py:66-71 | the target is the picked bank word with four records; attempts and flags are reset; the budget is kept |
| `ConsoleGame.MakeGuess` | wordle_game.py:186-224 | refusals (game over, wrong length) answer false and change nothing; an accepted guess counts one attempt and shows the four rendered lines; when the comparison fails (no game started) the attempt is still counted but nothing is shown and the game neither ends nor is won; the answer is true only for the target word, which sets won and over; otherwise the game ends exactly when the budget is reached |
| `ConsoleGame.MakeGuessPreservesValid` | wordle_game.py:186-224 | a guess keeps attempts within the budget and below it while the game runs, and a lost game is over exactly at the budget |
| `ConsoleGame.AttemptsNeverExceedMax` | wordle_game.py:195-217 | after starting, no sequence of guesses takes the attempt count past the budget |
| `ConsoleGame.WrongGuessesCount` | wordle_game.py:195-217 | each wrong four-character guess within the budget counts exactly one attempt and never wins; the game ends exactly when the last of them reaches the budget; budget and target are untouched |
| `ConsoleGame.SixWrongGuessesLose` | wordle_game.py:186-217 | with the default budget, six wrong four-character guesses end the game lost at six attempts, and a seventh guess is refused |
| `Decimal.ParseDigits` | wordle_game.py:132 | the printed attempt number reads back as the attempt count |
| `JsText.Trim` | static/js/script.js:85 | the trimmed input is the part of the input between a run of leading and a run of trailing white space, and starts and ends with something else |
| `JsText.TrimNoWhitespace` | static/js/script.js:85 | trimming leaves a string without white space unchanged |
| `JsText.RemoveNonCjk` | static/js/script.js:98-99 | removing the code units outside U+4E00..U+9FA5 leaves the input unchanged exactly when it is all CJK |
| `JsText.IntTextInjective` | static/js/script.js:279 | different integers are printed differently |
| `GuessInput.ValidateGuess` | static/js/script.js:84-102 | on the trimmed input, in this order: empty is refused, then a length other than four code units, then any code unit outside U+4E00..U+9FA5; only four CJK code units pass, unchanged |
| `GuessInput.ValidateGuessIdempotent` | static/js/script.js:85-102 | a word that passed the checks passes them again unchanged |
| `GuessInput.PreviewSlotAsWritten` | static/js/script.js:346-360 | slot i shows the i-th code unit typed, or "?" past the end; it is filled exactly when what it shows is not "?"; a filled slot shows "..." for pinyin and tone, an unfilled one "?" |
| `GuessInput.TypedQuestionMarkLooksEmpty` | static/js/script.js:347-359 | as written, a slot holding a typed "?" is drawn exactly like an empty slot and is not marked filled |
| `GuessInput.PreviewSlot` | static/js/script.js:346-360 | the corrected slot agrees with script.js's slot everywhere except at a typed "?" |
| `GuessInput.PreviewShowsInput` | static/js/script.js:343-360 | slot i shows the i-th code unit typed (pinyin and tone pending) or "?" past the end, and is filled exactly when a code unit is present |
| `GuessInput.FetchIffSubmittable` | static/js/script.js:362-366 | the preview asks for pinyin exactly for the inputs that would be submitted unchanged |
| `FeedbackView.CharClass` | static/js/script.js:220-227 | 'blue' gives the class correct, 'yellow' present, and every other tag absent |
| `FeedbackView.ShadeOf` | static/js/script.js:237-243 | the text colour of a tag follows the same three-way rule as the block class |
| `FeedbackView.Dedup` | static/js/script.js:234 | the distinct colours are exactly the values of the list, each once, ordered by where each first occurs in the list |
| `FeedbackView.SingleDistinctIffUniform` | static/js/script.js:232-235 | there is one distinct colour exactly when the list is non-empty and all its colours agree |
| `FeedbackView.PinyinStyle` | static/js/script.js:229-260 | no colours leave the field unstyled; a single distinct colour colours the whole field; otherwise there is one span per code unit of the text, in its own colour or gray when it has none, and the spans' letters put together are the text |
| `FeedbackView.ToneShade` | static/js/script.js:262-274 | the tone is unstyled exactly when it has no colour tags |
| `FeedbackView.ToneShadeUsesFirstOnly` | static/js/script.js:264-266 | tags after the first never change the tone colour |
| `FeedbackView.RenderBlock` | static/js/script.js:194-275 | a history block shows the character and pinyin of the result; its class is correct iff the character tag is blue and present iff it is yellow; its pinyin colouring is the one the pinyin rule gives for the letter tags; its tone label is the tone followed by the "tone" character (empty for no tone); its tone colour is that of the first tone tag, none without tags |
| `FeedbackView.ToneText` | static/js/script.js:208 | an empty tone gives an empty label; otherwise the label is the tone followed by one character meaning "tone" |
| `FeedbackView.ToneTextInjective` | static/js/script.js:208 | different tones get different labels |
| `Session.StartNewGame` | static/js/script.js:62-81 | on success attempts become 0, the flags false and the history empty, with the id and budget from the reply and no notice; on failure the record is unchanged and a non-empty notice is shown, the reply's message when it has one |
| `Session.StartForgetsThePast` | static/js/script.js:65-71 | a successful start gives the same record whatever the record was before |
| `Session.AttemptLabel` | static/js/script.js:278-280 | the label is the head text, the number of the attempt about to be made (attempts + 1), a space, the middle text, the budget, and the tail text, in that order and with nothing else: its length is the sum of the lengths of the head, the number, the middle (which begins with the space), the budget and the tail |
| `Session.AttemptLabelDeterminesCounts` | static/js/script.js:278-280 | two records with the same label agree on attempts and budget |
| `Session.LabelAfterStart` | static/js/script.js:65-74 | right after a successful start the label shows attempt 1 of the reply's budget |
| `Agreement.ServerColoursRender` | static/js/script.js:220-227 | the server's blue maps to correct and the exact shade, yellow to present, gray and white to absent |
| `Agreement.RenderedBlockMatchesVerdict` | static/js/script.js:168-183 | the block drawn for position i of the server's feedback is correct iff the characters match there, present iff the character is elsewhere in the target, absent iff it is not in the target; its tone is exact iff the tones match |
| `Agreement.ToneLabelOfServerTone` | static/js/script.js:208 | a server tone becomes an empty label or its digit followed by the "tone" character |
| `Agreement.AllBlueRendersExact` | static/js/script.js:218-274 | an all-blue feedback is drawn entirely in the exact colour |
| `Agreement.AcceptedGuessPassesLengthGuard` | app.py:141-142 | a guess script.js accepts decodes to four characters and is never refused by the server for its length |

## Left out

- Flask plumbing is not modelled: the routes, `session`, `uuid`, the global `games` map, `game_status` and `app.run` (app.py:206-270).
- Python's `strip()` in the guess route is not modelled (app.py:230). `WebGame.MakeGuess` takes the word after stripping.
- The interactive `play` loop is not modelled (wordle_game.py:226-246). It is only `input()`, `print` and recursive replay.
- `get_ip.py` is not part of this model. It does only socket and platform I/O.
- The pinyin library is a parameter; its actual readings are not modelled.
- `random.choice` is the `pick` index parameter.
- The message texts are not modelled: server messages, console prints other than `display_result`, and browser notices beyond `startNewGame`. Refusals are datatype values instead.
- The DOM is not modelled: `fetch`/`apiCall`, the loading indicator, `setTimeout`, animations, panel switching (`showGameGrid`, `showGameResult`, `newGame`) and the clearing helpers. History blocks are `Block` records rather than elements.
- `submitGuess` after its request is sent is not modelled. Only the checks before the request are part of the model.
- The preview's pinyin request and its result handling (`updateCurrentGuessInfo`) are not modelled. The server no longer has that endpoint (app.py:259). The race between superseded preview requests is not modelled either.
- Feedback.CompareWords: requires the guess to be no longer than the target. The source would raise an index error otherwise. Once a game is started, its callers pass four records against four. The session models that exception path, which is reachable only before a game is started.
- ConsoleGame.MakeGuess: `shown` holds only the lines `display_result` prints, not the other messages.
- FeedbackView.PinyinStyle: spans are records, not the HTML string script.js builds, so the unescaped insertion of letters into markup is not modelled.
- JsText.IntText: renders integers only. JavaScript's formatting of fractions and of very large numbers is not modelled.
- Python strings that hold lone surrogates cannot be written as Dafny `string`s and are not modelled.
- The number of preview blocks comes from index.html, which is not part of this model. It is the parameter `blocks`.

Facts about the code that the model relies on:

- script.js colours exact matches `#6a92e0` (static/js/script.js:238, 252, 268). `#6aaa64` is used only for the win title (static/js/script.js:140).
- script.js does not shorten the input while it is typed. Length and character checks happen only on submission (static/js/script.js:369-370).
- app.py has no `/api/get_pinyin` route (app.py:259).

## Findings

| source | as written | input that shows it | evidently intended | confidence | as-written member | corrected member |
|---|---|---|---|---|---|---|
| static/js/script.js:347-359 | a preview slot counts as filled when the character it shows is not "?", so "?" is both the placeholder and a typeable character | typing "?": slot 0 shows "?", is not marked filled, and shows "?" for pinyin and tone, like an empty slot | a slot is filled exactly when a character is present at its position | medium, not executed | `GuessInput.PreviewSlotAsWritten` (exhibited by `GuessInput.TypedQuestionMarkLooksEmpty`) | `GuessInput.PreviewSlot` (property proved in `GuessInput.PreviewShowsInput`) |

=== FILE: agreement.dfy ===
/**
 * How the browser's view lines up with the server's rules: the colour tags
 * travel as JSON strings, the page turns them into classes and shades, and
 * a guess the page lets through passes the server's length guard.
 */
module Agreement {
  import opened Outcomes
  import opened Pinyin
  import opened Feedback
  import opened JsText
  import opened FeedbackView
  import GuessInput
  import WebGame

  const WhiteTag: JsString := [0x77, 0x68, 0x69, 0x74, 0x65]  // "white"

  /** The JSON string the server writes for a colour. */
  function TagOf(c: Color): JsString {
    match c
    case Blue => BlueTag
    case Yellow => YellowTag
    case Gray => GrayTag
    case White => WhiteTag
  }

  /** Every server colour gets the block class of its meaning: blue correct, yellow present, gray and white absent. */
  lemma ServerColoursRender(c: Color)
    ensures CharClass(TagOf(c)) == Correct <==> c == Blue
    ensures CharClass(TagOf(c)) == Present <==> c == Yellow
    ensures CharClass(TagOf(c)) == Absent <==> c == Gray || c == White
    ensures ShadeOf(TagOf(c)) == ExactShade <==> c == Blue
    ensures ShadeOf(TagOf(c)) == PresentShade <==> c == Yellow
  {
    assert BlueTag[0] != YellowTag[0] && BlueTag[0] != GrayTag[0] && BlueTag[0] != WhiteTag[0];
    assert YellowTag[0] != GrayTag[0] && YellowTag[0] != WhiteTag[0];
  }

  /** The UTF-16 code units of one character, as the page receives it after JSON decoding. */
  function EncodeChar(c: char): (u: JsString)
    ensures 1 <= |u| <= 2
  {
    var v := c as int;
    if v < 0x1_0000 then [v as CodeUnit]
    else
      var w := v - 0x1_0000;
      [(0xD800 + w / 0x400) as CodeUnit, (0xDC00 + w % 0x400) as CodeUnit]
  }

  function Utf16(s: string): (u: JsString)
    decreases |s|
  {
    if |s| == 0 then [] else Utf16(s[..|s| - 1]) + EncodeChar(s[|s| - 1])
  }

  function Tags(cs: seq<Color>): (ts: seq<JsString>)
    ensures |ts| == |cs|
  {
    seq(|cs|, i requires 0 <= i < |cs| => TagOf(cs[i]))
  }

  /** One feedback entry as the page receives it. */
  function ToJson(f: CharFeedback): CharResult {
    CharResult(
      EncodeChar(f.chinese), TagOf(f.chineseColor),
      Utf16(f.pinyin), Tags(f.pinyinColors),
      Utf16(f.tone), Tags(f.toneColors))
  }

  /**
   * The block the page draws for position `i` of the web server's feedback
   * carries the server's verdict: the class is correct for the same
   * character at the same position, present for one found elsewhere, absent
   * otherwise, and the tone is coloured as exact exactly when the tones match.
   */
  lemma RenderedBlockMatchesVerdict(guess: seq<CharacterInfo>, target: seq<CharacterInfo>, i: nat)
    requires |guess| <= |target| && i < |guess|
    ensures var b := RenderBlock(ToJson(Compare(Web, guess, target)[i]));
      && (b.blockClass == Correct <==> guess[i].chinese == target[i].chinese)
      && (b.blockClass == Present <==> guess[i].chinese != target[i].chinese && guess[i].chinese in Word(target))
      && (b.blockClass == Absent <==> guess[i].chinese !in Word(target))
      && (b.toneShade == Some(ExactShade) <==> guess[i].tone == target[i].tone)
  {
    var e := Compare(Web, guess, target)[i];
    ServerColoursRender(e.chineseColor);
    ServerColoursRender(e.toneColors[0]);
    assert target[i].chinese == Word(target)[i];
  }

  /** The tone label of a server tone: nothing for an empty tone, else the digit and the character for "tone". */
  lemma ToneLabelOfServerTone(t: string)
    requires IsTone(t)
    ensures ToneText(Utf16(t)) == if t == [] then [] else [t[0] as int as CodeUnit, Sheng]
  {
    if t != [] {
      assert t[..0] == [];
    }
  }

  /**
   * A feedback that is blue everywhere is drawn entirely in the exact-match
   * colour: every block correct, every non-empty pinyin uniformly exact, and
   * every tone exact.
   */
  lemma AllBlueRendersExact(r: seq<CharFeedback>)
    requires AllBlue(r)
    ensures forall i | 0 <= i < |r| ::
      var b := RenderBlock(ToJson(r[i]));
      && b.blockClass == Correct
      && (r[i].pinyinColors != [] ==> b.pinyinLook == Uniform(ExactShade))
      && b.toneShade == Some(ExactShade)
  {
    forall i | 0 <= i < |r|
      ensures var b := RenderBlock(ToJson(r[i]));
        && b.blockClass == Correct
        && (r[i].pinyinColors != [] ==> b.pinyinLook == Uniform(ExactShade))
        && b.toneShade == Some(ExactShade)
    {
      var tags := Tags(r[i].pinyinColors);
      assert forall j | 0 <= j < |tags| :: tags[j] == BlueTag;
    }
  }

  /** CJK code units read back as characters, one character each. */
  function DecodeCjk(w: JsString): (s: string)
    requires AllCjk(w)
    ensures |s| == |w|
    ensures Utf16(s) == w
    decreases |w|
  {
    if |w| == 0 then []
    else
      var init := DecodeCjk(w[..|w| - 1]);
      var s := init + [w[|w| - 1] as int as char];
      assert s[..|s| - 1] == init;
      assert w == w[..|w| - 1] + [w[|w| - 1]];
      s
  }

  /**
   * A guess the page accepts is never refused by the server for its length:
   * it is four characters once decoded.
   */
  lemma AcceptedGuessPassesLengthGuard(input: JsString, g: WebGame.Game, lookup: Lookup)
    requires GuessInput.ValidateGuess(input).Ok?
    ensures var w := GuessInput.ValidateGuess(input).value;
      && |DecodeCjk(w)| == 4
      && WebGame.MakeGuess(g, DecodeCjk(w), lookup).response != WebGame.Rejected(WebGame.WrongLength)
  {
  }
}

=== FILE: client_input.dfy ===
/**
 * The browser's handling of what the player types: the checks run before a
 * guess is sent, and the live preview of the four character slots.
 */
module GuessInput {
  import opened Outcomes
  import opened JsText

  /** Why the page refuses to send a guess (each shows its own notice). */
  datatype InputError = EmptyInput | NotFourUnits | NotChineseOnly

  /**
   * The checks run on the trimmed input before any request is made, in the
   * page's order: empty, then length, then characters outside U+4E00..U+9FA5.
   */
  function ValidateGuess(input: JsString): (r: Result<JsString, InputError>)
    ensures r.Ok? <==> |Trim(input)| == 4 && AllCjk(Trim(input))
    ensures r.Ok? ==> r.value == Trim(input)
    ensures r == Err(EmptyInput) <==> Trim(input) == []
    ensures r == Err(NotFourUnits) <==> Trim(input) != [] && |Trim(input)| != 4
    ensures r == Err(NotChineseOnly) <==> |Trim(input)| == 4 && !AllCjk(Trim(input))
  {
    var word := Trim(input);
    if |word| == 0 then Err(EmptyInput)
    else if |word| != 4 then Err(NotFourUnits)
    else if word != RemoveNonCjk(word) then Err(NotChineseOnly)
    else Ok(word)
  }

  /** Accepted guesses are exactly four CJK code units, and validating one again accepts it unchanged. */
  lemma ValidateGuessIdempotent(input: JsString)
    requires ValidateGuess(input).Ok?
    ensures ValidateGuess(ValidateGuess(input).value) == ValidateGuess(input)
  {
    var w := ValidateGuess(input).value;
    CjkIsNotWhitespace(w);
    TrimNoWhitespace(w);
  }

  const QuestionMark: CodeUnit := 0x3F
  const Pending: JsString := [0x2E, 0x2E, 0x2E]  // "..."

  /** One preview slot: the character shown, whether it is marked filled, and its pinyin and tone placeholders. */
  datatype Slot = Slot(glyph: JsString, filled: bool, pinyin: JsString, tone: JsString)

  /**
   * The page's slot `index` for the input `value`, as written: the slot shows
   * `value[index]`, or "?" past the end, and is filled when what it shows is
   * not "?".
   */
  function PreviewSlotAsWritten(value: JsString, index: nat): (slot: Slot)
    ensures slot.glyph == (if index < |value| then [value[index]] else [QuestionMark])
    ensures slot.filled <==> slot.glyph != [QuestionMark]
    ensures slot.filled ==> slot.pinyin == Pending && slot.tone == Pending
    ensures !slot.filled ==> slot.pinyin == [QuestionMark] && slot.tone == [QuestionMark]
  {
    var glyph := if index < |value| then [value[index]] else [QuestionMark];
    if glyph != [QuestionMark] then Slot(glyph, true, Pending, Pending)
    else Slot(glyph, false, [QuestionMark], [QuestionMark])
  }

  /**
   * As written, a typed "?" cannot be told from an empty position: the slot
   * is left unfilled although a character is present there.
   */
  lemma TypedQuestionMarkLooksEmpty(value: JsString, index: nat)
    requires index < |value| && value[index] == QuestionMark
    ensures !PreviewSlotAsWritten(value, index).filled
    ensures PreviewSlotAsWritten(value, index) == PreviewSlotAsWritten([], index)
  {
  }

  /** The preview slot with filled meaning "a character is present at this position". */
  function PreviewSlot(value: JsString, index: nat): (slot: Slot)
    ensures index >= |value| || value[index] != QuestionMark ==> slot == PreviewSlotAsWritten(value, index)
  {
    if index < |value| then Slot([value[index]], true, Pending, Pending)
    else Slot([QuestionMark], false, [QuestionMark], [QuestionMark])
  }

  /** The slots of the preview area, one per block on the page. */
  function Preview(value: JsString, blocks: nat): (slots: seq<Slot>)
    ensures |slots| == blocks
  {
    seq(blocks, i requires 0 <= i < blocks => PreviewSlot(value, i))
  }

  /**
   * Slot `i` shows the `i`-th code unit typed, or "?" past the end of the
   * input, and is marked filled exactly when a code unit is present there.
   */
  lemma PreviewShowsInput(value: JsString, blocks: nat)
    ensures forall i | 0 <= i < blocks ::
      var slot := Preview(value, blocks)[i];
      && (slot.filled <==> i < |value|)
      && (i < |value| ==> slot.glyph == [value[i]] && slot.pinyin == Pending && slot.tone == Pending)
      && (i >= |value| ==> slot.glyph == [QuestionMark] && slot.pinyin == [QuestionMark] && slot.tone == [QuestionMark])
  {
  }

  /** The preview asks for pinyin only when the raw input is four CJK code units. */
  predicate ShouldFetch(value: JsString) {
    |value| == 4 && RemoveNonCjk(value) == value
  }

  /** The preview fetches for exactly the inputs that would be submitted unchanged. */
  lemma FetchIffSubmittable(value: JsString)
    ensures ShouldFetch(value) <==> ValidateGuess(value) == Ok(value)
  {
    if ShouldFetch(value) {
      CjkIsNotWhitespace(value);
      TrimNoWhitespace(value);
    }
  }
}

=== FILE: client_render.dfy ===
/**
 * The browser's rendering of one position of a guess's feedback: the class
 * of the block, the colouring of the pinyin (uniform, or letter by letter
 * when the letters differ), and the tone's text and colour.
 */
module FeedbackView {
  import opened Outcomes
  import opened JsText

  const BlueTag: JsString := [0x62, 0x6C, 0x75, 0x65]          // "blue"
  const YellowTag: JsString := [0x79, 0x65, 0x6C, 0x6C, 0x6F, 0x77]  // "yellow"
  const GrayTag: JsString := [0x67, 0x72, 0x61, 0x79]          // "gray"

  /** The class given to a character block: `correct`, `present` or `absent`. */
  datatype BlockClass = Correct | Present | Absent

  /** The text colours used for pinyin letters and tones: #6a92e0, #c9b458 and #787c7e. */
  datatype Shade = ExactShade | PresentShade | AbsentShade

  /** 'blue' marks the block correct, 'yellow' present, any other tag absent. */
  function CharClass(tag: JsString): (c: BlockClass)
    ensures c == Correct <==> tag == BlueTag
    ensures c == Present <==> tag == YellowTag
  {
    if tag == BlueTag then Correct
    else if tag == YellowTag then Present
    else Absent
  }

  /** The text colour of a tag, by the same rule as the block class. */
  function ShadeOf(tag: JsString): (s: Shade)
    ensures s == ExactShade <==> CharClass(tag) == Correct
    ensures s == PresentShade <==> CharClass(tag) == Present
  {
    if tag == BlueTag then ExactShade
    else if tag == YellowTag then PresentShade
    else AbsentShade
  }

  predicate Distinct(s: seq<JsString>) {
    forall i, j | 0 <= i < j < |s| :: s[i] != s[j]
  }

  /** The position where `x` first occurs in `s`. */
  function FirstIndex(s: seq<JsString>, x: JsString): (k: nat)
    requires x in s
    ensures k < |s| && s[k] == x
    ensures forall i | 0 <= i < k :: s[i] != x
    decreases |s|
  {
    if s[0] == x then 0 else 1 + FirstIndex(s[1..], x)
  }

  /** A value met before the last element first occurs where it first occurs in the shorter list. */
  lemma FirstIndexOfPrefix(s: seq<JsString>, x: JsString)
    requires |s| > 0 && x in s[..|s| - 1]
    ensures FirstIndex(s, x) == FirstIndex(s[..|s| - 1], x)
  {
    var init := s[..|s| - 1];
    var f, g := FirstIndex(s, x), FirstIndex(init, x);
    assert init[g] == s[g];
    assert f < |init| ==> init[f] == s[f];
  }

  /** `[...new Set(s)]`: the different values of `s`, each once, in order of first occurrence. */
  function Dedup(s: seq<JsString>): (u: seq<JsString>)
    ensures forall x :: x in u <==> x in s
    ensures Distinct(u)
    ensures |u| <= |s|
    ensures |s| > 0 ==> |u| > 0 && u[0] == s[0]
    ensures forall i, j | 0 <= i < j < |u| :: FirstIndex(s, u[i]) < FirstIndex(s, u[j])
    decreases |s|
  {
    if |s| == 0 then []
    else
      var init := Dedup(s[..|s| - 1]);
      var last := s[|s| - 1];
      assert forall x :: x in s <==> x in s[..|s| - 1] || x == last;
      forall x | x in init
        ensures FirstIndex(s, x) == FirstIndex(s[..|s| - 1], x) < |s| - 1
      {
        FirstIndexOfPrefix(s, x);
      }
      if last in init then
        init
      else
        assert |s| > 1 ==> s[..|s| - 1][0] == s[0];
        assert FirstIndex(s, last) == |s| - 1;
        var u := init + [last];
        assert forall i | 0 <= i < |init| :: u[i] == init[i] && u[i] in init;
        u
  }

  /** A list has exactly one distinct value when it is non-empty and all its values equal the first. */
  lemma SingleDistinctIffUniform(s: seq<JsString>)
    ensures |Dedup(s)| == 1 <==> |s| > 0 && forall i | 0 <= i < |s| :: s[i] == s[0]
  {
    var u := Dedup(s);
    if |u| == 1 {
      forall i | 0 <= i < |s|
        ensures s[i] == s[0]
      {
        assert s[i] in u;
      }
    }
    if |s| > 0 && forall i | 0 <= i < |s| :: s[i] == s[0] {
      forall i | 0 <= i < |u|
        ensures u[i] == s[0]
      {
        assert u[i] in s;
      }
    }
  }

  /** One letter of a mixed-colour pinyin, wrapped in its own span. */
  datatype Span = Span(shade: Shade, letter: CodeUnit)

  /** How the pinyin field of a block is coloured. */
  datatype PinyinLook = Unstyled | Uniform(shade: Shade) | Spans(spans: seq<Span>)

  /** The colour tag of letter `i`: its own tag, or 'gray' when it has none. */
  function TagAt(colors: seq<JsString>, i: nat): JsString {
    if i < |colors| && colors[i] != [] then colors[i] else GrayTag
  }

  function SpanText(spans: seq<Span>): (t: JsString)
    ensures |t| == |spans|
  {
    seq(|spans|, i requires 0 <= i < |spans| => spans[i].letter)
  }

  /**
   * The pinyin colouring: none without colours; one colour for the whole
   * field when all the colours agree; otherwise one span per letter of the
   * text, each in its own letter's colour.
   */
  function PinyinStyle(text: JsString, colors: seq<JsString>): (look: PinyinLook)
    ensures look == Unstyled <==> colors == []
    ensures look.Uniform? <==> |colors| > 0 && forall i | 0 <= i < |colors| :: colors[i] == colors[0]
    ensures look.Uniform? ==> look.shade == ShadeOf(colors[0])
    ensures look.Spans? ==>
      && SpanText(look.spans) == text
      && forall i | 0 <= i < |text| :: look.spans[i].shade == ShadeOf(TagAt(colors, i))
  {
    SingleDistinctIffUniform(colors);
    if |colors| > 0 then
      var unique := Dedup(colors);
      if |unique| == 1 then Uniform(ShadeOf(unique[0]))
      else Spans(seq(|text|, i requires 0 <= i < |text| => Span(ShadeOf(TagAt(colors, i)), text[i])))
    else Unstyled
  }

  /** The tone's colour comes from its first colour tag alone; without tags the tone is left unstyled. */
  function ToneShade(colors: seq<JsString>): (s: Option<Shade>)
    ensures s.None? <==> colors == []
    ensures s.Some? ==> s.value == ShadeOf(colors[0])
  {
    if |colors| > 0 then Some(ShadeOf(colors[0])) else None
  }

  /** Colour tags after the first never change the tone's colour. */
  lemma ToneShadeUsesFirstOnly(a: seq<JsString>, b: seq<JsString>)
    requires |a| > 0 && |b| > 0 && a[0] == b[0]
    ensures ToneShade(a) == ToneShade(b)
  {
  }

  const Sheng: CodeUnit := 0x58F0  // the character for "tone"

  /** The tone label: the tone followed by the character for "tone", or nothing for an empty tone. */
  function ToneText(tone: JsString): (t: JsString)
    ensures tone == [] <==> t == []
    ensures t != [] ==> t[..|t| - 1] == tone && t[|t| - 1] == Sheng
  {
    if tone != [] then tone + [Sheng] else []
  }

  /** Different tones get different labels. */
  lemma ToneTextInjective(a: JsString, b: JsString)
    requires ToneText(a) == ToneText(b)
    ensures a == b
  {
  }

  /** A guess's feedback for one position as the page receives it. */
  datatype CharResult = CharResult(
    chinese: JsString, chineseColor: JsString,
    pinyin: JsString, pinyinColors: seq<JsString>,
    tone: JsString, toneColors: seq<JsString>)

  /** What a history block shows. */
  datatype Block = Block(
    blockClass: BlockClass, glyph: JsString,
    pinyin: JsString, pinyinLook: PinyinLook,
    toneLabel: JsString, toneShade: Option<Shade>)

  /** A history block: the character, pinyin and tone label, coloured by the result's tags. */
  function RenderBlock(r: CharResult): (b: Block)
    ensures b.glyph == r.chinese && b.pinyin == r.pinyin
    ensures b.blockClass == Correct <==> r.chineseColor == BlueTag
    ensures b.blockClass == Present <==> r.chineseColor == YellowTag
    ensures b.pinyinLook.Unstyled? <==> r.pinyinColors == []
    ensures b.toneLabel == [] <==> r.tone == []
    ensures b.toneShade.None? <==> r.toneColors == []
    ensures b.pinyinLook == PinyinStyle(r.pinyin, r.pinyinColors)
    ensures b.toneLabel == ToneText(r.tone) && b.toneShade == ToneShade(r.toneColors)
  {
    Block(CharClass(r.chineseColor), r.chinese, r.pinyin, PinyinStyle(r.pinyin, r.pinyinColors),
          ToneText(r.tone), ToneShade(r.toneColors))
  }
}

=== FILE: client_session.dfy ===
/**
 * The browser's session record and the updates the page makes to it when a
 * new game is requested, plus the attempt label it shows.
 */
module Session {
  import opened Outcomes
  import opened JsText

  datatype ClientState = ClientState(
    gameId: Option<JsString>,
    attempts: int,
    maxAttempts: int,
    gameOver: bool,
    won: bool,
    guessHistory: seq<JsString>)

  /**
   * The answer to a new-game request. A transport failure arrives as a
   * failure whose message is the generic network-error text.
   */
  datatype NewGameReply =
    | NewGameOk(gameId: JsString, maxAttempts: int)
    | NewGameFailed(message: JsString)

  const StartFailed: JsString := [0x5F00, 0x59CB, 0x6E38, 0x620F, 0x5931, 0x8D25]  // "failed to start the game"

  /** The new record and the notice shown, if any. */
  datatype StartOutcome = StartOutcome(state: ClientState, notice: Option<JsString>)

  /**
   * On success the record is reset, taking the id and the budget from the
   * reply; on failure it is left as it was and the reply's message (or a
   * default when it is empty) is shown.
   */
  function StartNewGame(s: ClientState, reply: NewGameReply): (o: StartOutcome)
    ensures reply.NewGameOk? ==>
      && o.state.attempts == 0 && !o.state.gameOver && !o.state.won && o.state.guessHistory == []
      && o.state.gameId == Some(reply.gameId) && o.state.maxAttempts == reply.maxAttempts
      && o.notice == None
    ensures reply.NewGameFailed? ==>
      && o.state == s
      && o.notice.Some? && o.notice.value != []
      && (reply.message != [] ==> o.notice.value == reply.message)
  {
    match reply
    case NewGameOk(id, max) =>
      StartOutcome(s.(gameId := Some(id), maxAttempts := max, attempts := 0, gameOver := false, won := false, guessHistory := []), None)
    case NewGameFailed(message) =>
      StartOutcome(s, Some(if message != [] then message else StartFailed))
  }

  /** A successful start gives the same record whatever came before it. */
  lemma StartForgetsThePast(s1: ClientState, s2: ClientState, id: JsString, max: int)
    ensures StartNewGame(s1, NewGameOk(id, max)).state == StartNewGame(s2, NewGameOk(id, max)).state
  {
  }

  const LabelHead: JsString := [0x7B2C, Space]                                // "第 "
  const LabelMiddle: JsString := [Space, 0x6B21, Space, 0x2F, Space, 0x5171, Space]  // " 次 / 共 "
  const LabelTail: JsString := [Space, 0x6B21]                               // " 次"

  /** "Attempt n of m", with n the number of the attempt about to be made. */
  function AttemptLabel(s: ClientState): (text: JsString)
    ensures var n, h := IntText(s.attempts + 1), |LabelHead|;
      && h + |n| < |text|
      && text[..h] == LabelHead
      && text[h..h + |n|] == n
      && text[h + |n|] == Space
    ensures |LabelTail| <= |text| && text[|text| - |LabelTail|..] == LabelTail
    ensures var m, e := IntText(s.maxAttempts), |text| - |LabelTail|;
      && |LabelMiddle| + |m| <= e
      && text[e - |m| - |LabelMiddle|..e - |m|] == LabelMiddle
      && text[e - |m|..e] == m
    ensures |text| == |LabelHead| + |IntText(s.attempts + 1)| + |LabelMiddle| + |IntText(s.maxAttempts)| + |LabelTail|
  {
    var n, m := IntText(s.attempts + 1), IntText(s.maxAttempts);
    LabelLayout(n, m);
    LabelHead + n + LabelMiddle + m + LabelTail
  }

  lemma LabelLayout(n: JsString, m: JsString)
    ensures var text, h := LabelHead + n + LabelMiddle + m + LabelTail, |LabelHead|;
      && h + |n| < |text|
      && text[..h] == LabelHead
      && text[h..h + |n|] == n
      && text[h + |n|] == Space
      && |LabelTail| <= |text| && text[|text| - |LabelTail|..] == LabelTail
    ensures var text, e := LabelHead + n + LabelMiddle + m + LabelTail, |LabelHead + n + LabelMiddle + m + LabelTail| - |LabelTail|;
      && |LabelMiddle| + |m| <= e
      && text[e - |m| - |LabelMiddle|..e - |m|] == LabelMiddle
      && text[e - |m|..e] == m
  {
    var rest := LabelMiddle + m + LabelTail;
    var text := LabelHead + n + LabelMiddle + m + LabelTail;
    assert text == LabelHead + (n + rest);
    assert text == (LabelHead + n + LabelMiddle + m) + LabelTail;
    assert rest[0] == Space;
    assert text == (LabelHead + n) + LabelMiddle + m + LabelTail;
  }

  lemma CutPrefix(h: JsString, x: JsString, y: JsString)
    requires h + x == h + y
    ensures x == y
  {
    assert x == (h + x)[|h|..];
    assert y == (h + y)[|h|..];
  }

  /** The label regrouped around the spaces that end the two numbers. */
  lemma LabelShape(a: JsString, m: JsString)
    ensures LabelHead + a + LabelMiddle + m + LabelTail
      == LabelHead + (a + [Space] + (LabelMiddle[1..] + (m + [Space] + LabelTail[1..])))
  {
    assert LabelMiddle == [Space] + LabelMiddle[1..];
    assert LabelTail == [Space] + LabelTail[1..];
  }

  lemma LabelPartsDetermined(a1: JsString, m1: JsString, a2: JsString, m2: JsString)
    requires NoSpace(a1) && NoSpace(m1) && NoSpace(a2) && NoSpace(m2)
    requires LabelHead + a1 + LabelMiddle + m1 + LabelTail == LabelHead + a2 + LabelMiddle + m2 + LabelTail
    ensures a1 == a2 && m1 == m2
  {
    var mid, tail := LabelMiddle[1..], LabelTail[1..];
    var r1, r2 := mid + (m1 + [Space] + tail), mid + (m2 + [Space] + tail);
    LabelShape(a1, m1);
    LabelShape(a2, m2);
    CutPrefix(LabelHead, a1 + [Space] + r1, a2 + [Space] + r2);
    SplitAtFirstSpace(a1, r1, a2, r2);
    CutPrefix(mid, m1 + [Space] + tail, m2 + [Space] + tail);
    SplitAtFirstSpace(m1, tail, m2, tail);
  }

  /**
   * The label determines both numbers it shows: two records with the same
   * label agree on the attempt count and the budget.
   */
  lemma AttemptLabelDeterminesCounts(s1: ClientState, s2: ClientState)
    requires AttemptLabel(s1) == AttemptLabel(s2)
    ensures s1.attempts == s2.attempts && s1.maxAttempts == s2.maxAttempts
  {
    var a1, m1 := IntText(s1.attempts + 1), IntText(s1.maxAttempts);
    var a2, m2 := IntText(s2.attempts + 1), IntText(s2.maxAttempts);
    assert LabelHead + a1 + LabelMiddle + m1 + LabelTail == LabelHead + a2 + LabelMiddle + m2 + LabelTail;
    LabelPartsDetermined(a1, m1, a2, m2);
    IntTextInjective(s1.attempts + 1, s2.attempts + 1);
    IntTextInjective(s1.maxAttempts, s2.maxAttempts);
  }

  /** Right after a successful start the label reads "attempt 1 of m". */
  lemma LabelAfterStart(s: ClientState, id: JsString, max: int)
    ensures AttemptLabel(StartNewGame(s, NewGameOk(id, max)).state)
      == LabelHead + [0x31] + LabelMiddle + IntText(max) + LabelTail
  {
    assert IntText(1) == [0x31];
  }
}

=== FILE: client_text.dfy ===
/**
 * Browser strings. A JavaScript string is a sequence of UTF-16 code units:
 * `length`, indexing and the regular expressions of the page all work on
 * code units, so the browser-side model uses `JsString` rather than
 * Dafny's `string` of Unicode scalar values.
 */
module JsText {
  import Decimal

  newtype CodeUnit = x: int | 0 <= x < 0x1_0000

  type JsString = seq<CodeUnit>

  const Space: CodeUnit := 0x20

  /** The code units `String.prototype.trim` removes: white space and line terminators. */
  predicate IsWhitespace(u: CodeUnit) {
    || u == 0x09 || u == 0x0A || u == 0x0B || u == 0x0C || u == 0x0D
    || u == 0x20 || u == 0xA0 || u == 0x1680
    || (0x2000 <= u <= 0x200A)
    || u == 0x2028 || u == 0x2029 || u == 0x202F || u == 0x205F
    || u == 0x3000 || u == 0xFEFF
  }

  predicate AllWhitespace(s: JsString) {
    forall k | 0 <= k < |s| :: IsWhitespace(s[k])
  }

  predicate NoWhitespace(s: JsString) {
    forall k | 0 <= k < |s| :: !IsWhitespace(s[k])
  }

  /** The index of the first code unit at or after `i` that is not white space, or `|s|`. */
  function SkipWhitespace(s: JsString, i: nat): (a: nat)
    requires i <= |s|
    ensures i <= a <= |s|
    ensures forall k | i <= k < a :: IsWhitespace(s[k])
    ensures a == |s| || !IsWhitespace(s[a])
    decreases |s| - i
  {
    if i < |s| && IsWhitespace(s[i]) then SkipWhitespace(s, i + 1) else i
  }

  /** The end of `s[lo..e]` once its trailing white space is dropped. */
  function BackOverWhitespace(s: JsString, lo: nat, e: nat): (b: nat)
    requires lo <= e <= |s|
    ensures lo <= b <= e
    ensures forall k | b <= k < e :: IsWhitespace(s[k])
    ensures b == lo || !IsWhitespace(s[b - 1])
    decreases e
  {
    if e > lo && IsWhitespace(s[e - 1]) then BackOverWhitespace(s, lo, e - 1) else e
  }

  /**
   * `String.prototype.trim`: the part of `s` between its leading and its
   * trailing white space.
   */
  function Trim(s: JsString): (t: JsString)
    ensures var a := SkipWhitespace(s, 0);
      && a + |t| <= |s|
      && t == s[a..a + |t|]
      && AllWhitespace(s[..a]) && AllWhitespace(s[a + |t|..])
    ensures t == [] || (!IsWhitespace(t[0]) && !IsWhitespace(t[|t| - 1]))
  {
    var a := SkipWhitespace(s, 0);
    var b := BackOverWhitespace(s, a, |s|);
    s[a..b]
  }

  /** Trimming a string without white space leaves it as it is. */
  lemma TrimNoWhitespace(s: JsString)
    requires NoWhitespace(s)
    ensures Trim(s) == s
  {
    assert SkipWhitespace(s, 0) == 0;
    assert BackOverWhitespace(s, 0, |s|) == |s|;
  }

  /** The code units of the CJK Unified Ideographs block the page accepts, U+4E00 to U+9FA5. */
  predicate IsCjk(u: CodeUnit) {
    0x4E00 <= u <= 0x9FA5
  }

  predicate AllCjk(s: JsString) {
    forall k | 0 <= k < |s| :: IsCjk(s[k])
  }

  /**
   * `s.replace(/[^\u4e00-\u9fa5]/g, '')`: the CJK code units of `s`, in
   * order. It leaves `s` unchanged exactly when `s` is all CJK.
   */
  function RemoveNonCjk(s: JsString): (r: JsString)
    ensures |r| <= |s|
    ensures forall k | 0 <= k < |r| :: IsCjk(r[k])
    ensures r == s <==> AllCjk(s)
    decreases |s|
  {
    if |s| == 0 then []
    else if IsCjk(s[|s| - 1]) then RemoveNonCjk(s[..|s| - 1]) + [s[|s| - 1]]
    else RemoveNonCjk(s[..|s| - 1])
  }

  /** A CJK code unit is never white space. */
  lemma CjkIsNotWhitespace(s: JsString)
    requires AllCjk(s)
    ensures NoWhitespace(s)
  {
  }

  /** A JavaScript number that is an integer, as a template literal prints it. */
  function IntText(n: int): (t: JsString)
    ensures |t| > 0
    ensures NoSpace(t)
    ensures t[0] == 0x2D <==> n < 0
  {
    var digits := Decimal.Digits(if n < 0 then -n else n);
    var units := seq(|digits|, i requires 0 <= i < |digits| => digits[i] as int as CodeUnit);
    if n < 0 then [0x2D] + units else units
  }

  /**
   * Browser text has no space. The console's rendering has the same helpers
   * over Python strings; these work on UTF-16 code units instead.
   */
  predicate NoSpace(s: JsString) {
    forall k | 0 <= k < |s| :: s[k] != Space
  }

  /** Different integers print differently. */
  lemma IntTextInjective(m: int, n: int)
    requires IntText(m) == IntText(n)
    ensures m == n
  {
    var dm := Decimal.Digits(if m < 0 then -m else m);
    var dn := Decimal.Digits(if n < 0 then -n else n);
    var um := seq(|dm|, i requires 0 <= i < |dm| => dm[i] as int as CodeUnit);
    var un := seq(|dn|, i requires 0 <= i < |dn| => dn[i] as int as CodeUnit);
    assert Decimal.IsDigit(dm[0]) && Decimal.IsDigit(dn[0]);
    if (m < 0) == (n < 0) {
      if m < 0 {
        assert um == IntText(m)[1..];
        assert un == IntText(n)[1..];
      }
      assert um == un;
      assert dm == dn by {
        forall i | 0 <= i < |dm|
          ensures dm[i] == dn[i]
        {
          assert um[i] == un[i];
        }
      }
      Decimal.DigitsInjective(if m < 0 then -m else m, if n < 0 then -n else n);
    }
  }

  /** The index of the first space of `s`, or its length when it has none. */
  function SpaceIndex(s: JsString): (k: nat)
    ensures k <= |s|
    decreases |s|
  {
    if |s| == 0 || s[0] == Space then 0 else 1 + SpaceIndex(s[1..])
  }

  lemma {:induction false} SpaceIndexAfter(x: JsString, p: JsString)
    requires NoSpace(x)
    ensures SpaceIndex(x + [Space] + p) == |x|
    decreases |x|
  {
    if |x| > 0 {
      assert (x + [Space] + p)[1..] == x[1..] + [Space] + p;
      SpaceIndexAfter(x[1..], p);
    }
  }

  /** A space-free string followed by a space can be cut off again unambiguously. */
  lemma SplitAtFirstSpace(x: JsString, p: JsString, y: JsString, q: JsString)
    requires NoSpace(x) && NoSpace(y)
    requires x + [Space] + p == y + [Space] + q
    ensures x == y && p == q
  {
    var s := x + [Space] + p;
    SpaceIndexAfter(x, p);
    SpaceIndexAfter(y, q);
    assert x == s[..|x|] && y == s[..|y|];
    assert p == s[|x| + 1..] && q == s[|y| + 1..];
  }
}

=== FILE: console_display.dfy ===
/**
 * The console game's rendering of one guess as four lines of text: a
 * header, the characters, the pinyin letters and the tones, each item
 * prefixed by a coloured square.
 */
module ConsoleDisplay {
  import opened Outcomes
  import opened Decimal
  import opened Feedback

  const BlueSquare: char := '\U{1F7E6}'
  const YellowSquare: char := '\U{1F7E8}'
  const WhiteSquare: char := '\U{2B1C}'

  predicate IsMarker(c: char) {
    c == BlueSquare || c == YellowSquare || c == WhiteSquare
  }

  /** Blue and yellow have their own square; any other colour, or no colour at all, is white. */
  function Marker(c: Option<Color>): (m: char)
    ensures IsMarker(m)
    ensures m == BlueSquare <==> c == Some(Blue)
    ensures m == YellowSquare <==> c == Some(Yellow)
  {
    match c
    case Some(Blue) => BlueSquare
    case Some(Yellow) => YellowSquare
    case _ => WhiteSquare
  }

  function ColorAt(colors: seq<Color>, j: nat): Option<Color> {
    if j < |colors| then Some(colors[j]) else None
  }

  /** A marked character, e.g. a blue square followed by the character. */
  function ChinesePiece(e: CharFeedback): string {
    [Marker(Some(e.chineseColor)), e.chinese]
  }

  /** The letters of one pinyin, each preceded by the marker of its own colour. */
  function PinyinPiece(text: string, colors: seq<Color>): (p: string)
    ensures |p| == 2 * |text|
    ensures forall j | 0 <= j < |text| :: p[2 * j] == Marker(ColorAt(colors, j)) && p[2 * j + 1] == text[j]
    decreases |text|
  {
    if |text| == 0 then []
    else PinyinPiece(text[..|text| - 1], colors) + [Marker(ColorAt(colors, |text| - 1)), text[|text| - 1]]
  }

  /** A marked tone: only the first tone colour is looked at. */
  function TonePiece(e: CharFeedback): string {
    [Marker(if |e.toneColors| > 0 then Some(e.toneColors[0]) else None)] + e.tone
  }

  /** The letters of a marked pinyin: every second character. */
  function Letters(p: string): string {
    seq(|p| / 2, j requires 0 <= j < |p| / 2 => p[2 * j + 1])
  }

  /** Dropping the markers from a marked pinyin gives the pinyin back. */
  lemma LettersOfPinyinPiece(text: string, colors: seq<Color>)
    ensures Letters(PinyinPiece(text, colors)) == text
  {
  }

  function Concat(pieces: seq<string>): string
    decreases |pieces|
  {
    if |pieces| == 0 then [] else Concat(pieces[..|pieces| - 1]) + pieces[|pieces| - 1]
  }

  /** The pieces with exactly one space between neighbours and none at the end. */
  function Join(pieces: seq<string>): string
    decreases |pieces|
  {
    if |pieces| == 0 then []
    else if |pieces| == 1 then pieces[0]
    else Join(pieces[..|pieces| - 1]) + " " + pieces[|pieces| - 1]
  }

  /**
   * Python text has no space. The console works on Python strings (code
   * points, `char`); `JsText` has its own space helpers because browser
   * strings are UTF-16 code units, a different element type.
   */
  predicate NoSpace(s: string) {
    forall k | 0 <= k < |s| :: s[k] != ' '
  }

  /** The index of the first space of `s`, or `|s|` when it has none. */
  function FirstSpace(s: string): (i: nat)
    ensures i <= |s|
    ensures forall k | 0 <= k < i :: s[k] != ' '
    ensures i < |s| ==> s[i] == ' '
    decreases |s|
  {
    if |s| == 0 || s[0] == ' ' then 0 else 1 + FirstSpace(s[1..])
  }

  /** The pieces of a line between its spaces, as Python's `split(' ')` gives them. */
  function Split(s: string): (ps: seq<string>)
    ensures |ps| >= 1
    decreases |s|
  {
    var i := FirstSpace(s);
    if i == |s| then [s] else [s[..i]] + Split(s[i + 1..])
  }

  /** A space-free piece followed by a space is cut off as the first piece. */
  lemma SplitCons(p: string, rest: string)
    requires NoSpace(p)
    ensures Split(p + " " + rest) == [p] + Split(rest)
  {
    var s := p + " " + rest;
    assert s[|p|] == ' ';
    assert forall k | 0 <= k < |p| :: s[k] == p[k];
    var i := FirstSpace(s);
    assert i == |p|;
    assert s[..i] == p;
    assert s[i + 1..] == rest;
  }

  /** A space-free line is a single piece. */
  lemma SplitSingle(p: string)
    requires NoSpace(p)
    ensures Split(p) == [p]
  {
    assert FirstSpace(p) == |p|;
  }

  /** A joined line of two or more pieces is its first piece, a space, and the join of the rest. */
  lemma {:induction false} JoinCons(pieces: seq<string>)
    requires |pieces| >= 2
    ensures Join(pieces) == pieces[0] + " " + Join(pieces[1..])
    decreases |pieces|
  {
    var n := |pieces|;
    var tail := pieces[1..];
    assert tail[..|tail| - 1] == pieces[..n - 1][1..];
    if n == 2 {
      assert Join(pieces[..1]) == pieces[0];
      assert Join(tail) == pieces[1];
    } else {
      JoinCons(pieces[..n - 1]);
      assert Join(tail) == Join(pieces[..n - 1][1..]) + " " + pieces[n - 1];
    }
  }

  /** Splitting a joined line at its spaces gives back the pieces, when the pieces hold no space. */
  lemma {:induction false} SplitJoin(pieces: seq<string>)
    requires |pieces| >= 1
    requires forall i | 0 <= i < |pieces| :: NoSpace(pieces[i])
    ensures Split(Join(pieces)) == pieces
    decreases |pieces|
  {
    if |pieces| == 1 {
      SplitSingle(pieces[0]);
    } else {
      JoinCons(pieces);
      SplitCons(pieces[0], Join(pieces[1..]));
      SplitJoin(pieces[1..]);
      assert [pieces[0]] + pieces[1..] == pieces;
    }
  }

  function ChinesePieces(result: seq<CharFeedback>): seq<string> {
    seq(|result|, i requires 0 <= i < |result| => ChinesePiece(result[i]))
  }

  function PinyinPieces(result: seq<CharFeedback>): seq<string> {
    seq(|result|, i requires 0 <= i < |result| => PinyinPiece(result[i].pinyin, result[i].pinyinColors))
  }

  function TonePieces(result: seq<CharFeedback>): seq<string> {
    seq(|result|, i requires 0 <= i < |result| => TonePiece(result[i]))
  }

  /**
   * The pinyin line can be read back: split at its spaces it yields one
   * piece per entry, and the letters of each piece are that entry's pinyin.
   */
  lemma {:induction false} PinyinLineDecodes(result: seq<CharFeedback>)
    requires |result| >= 1
    requires forall i | 0 <= i < |result| :: NoSpace(result[i].pinyin)
    ensures var ps := Split(Join(PinyinPieces(result)));
      |ps| == |result| && forall i | 0 <= i < |result| :: Letters(ps[i]) == result[i].pinyin
  {
    var pieces := PinyinPieces(result);
    forall i | 0 <= i < |result|
      ensures NoSpace(pieces[i])
    {
      var text := result[i].pinyin;
      forall k | 0 <= k < |pieces[i]|
        ensures pieces[i][k] != ' '
      {
        assert k == 2 * (k / 2) || k == 2 * (k / 2) + 1;
        if k % 2 == 1 {
          assert pieces[i][k] == text[k / 2];
        }
      }
    }
    SplitJoin(pieces);
    forall i | 0 <= i < |result|
      ensures Letters(pieces[i]) == result[i].pinyin
    {
      LettersOfPinyinPiece(result[i].pinyin, result[i].pinyinColors);
    }
  }

  /**
   * The tone line can be read back: split at its spaces it yields one piece
   * per entry, made of the marker of the entry's first tone colour (white
   * when it has none) followed by the tone.
   */
  lemma {:induction false} ToneLineDecodes(result: seq<CharFeedback>)
    requires |result| >= 1
    requires forall i | 0 <= i < |result| :: NoSpace(result[i].tone)
    ensures var ps := Split(Join(TonePieces(result)));
      && |ps| == |result|
      && forall i | 0 <= i < |result| ::
           && |ps[i]| == 1 + |result[i].tone|
           && ps[i][1..] == result[i].tone
           && (ps[i][0] == BlueSquare <==> |result[i].toneColors| > 0 && result[i].toneColors[0] == Blue)
           && (ps[i][0] == YellowSquare <==> |result[i].toneColors| > 0 && result[i].toneColors[0] == Yellow)
           && (|result[i].toneColors| == 0 ==> ps[i][0] == WhiteSquare)
  {
    var pieces := TonePieces(result);
    forall i | 0 <= i < |result|
      ensures NoSpace(pieces[i])
    {
      assert pieces[i] == [pieces[i][0]] + result[i].tone;
    }
    SplitJoin(pieces);
  }

  /** The four printed lines: header, characters, pinyin, tones. */
  function Lines(attempts: nat, guessWord: string, result: seq<CharFeedback>): seq<string> {
    [ "\n第" + Digits(attempts) + "次猜测: " + guessWord,
      "中文: " + Concat(ChinesePieces(result)),
      "拼音: " + Join(PinyinPieces(result)),
      "声调: " + Join(TonePieces(result)) ]
  }

  /** The source's inner loop: each letter with the marker of its colour, white when it has none. */
  method MarkLetters(text: string, colors: seq<Color>) returns (piece: string)
    ensures piece == PinyinPiece(text, colors)
  {
    piece := [];
    var j := 0;
    while j < |text|
      invariant 0 <= j <= |text|
      invariant piece == PinyinPiece(text[..j], colors)
    {
      if j < |colors| {
        var color := colors[j];
        if color == Blue {
          piece := piece + [BlueSquare, text[j]];
        } else if color == Yellow {
          piece := piece + [YellowSquare, text[j]];
        } else {
          piece := piece + [WhiteSquare, text[j]];
        }
      } else {
        piece := piece + [WhiteSquare, text[j]];
      }
      assert text[..j + 1][..j] == text[..j];
      j := j + 1;
    }
    assert text[..j] == text;
  }

  /**
   * The source's loop for the pinyin line: every letter once with its marker,
   * a space after each entry but the last.
   */
  method PinyinLine(result: seq<CharFeedback>) returns (line: string)
    ensures line == Join(PinyinPieces(result))
  {
    var pieces := PinyinPieces(result);
    line := [];
    var i := 0;
    while i < |result|
      invariant 0 <= i <= |result|
      invariant line == Join(pieces[..i]) + (if 0 < i < |result| then " " else "")
    {
      var piece := MarkLetters(result[i].pinyin, result[i].pinyinColors);
      assert piece == pieces[i];
      line := line + piece;
      if i < |result| - 1 {
        line := line + " ";
      }
      assert pieces[..i + 1][..i] == pieces[..i];
      i := i + 1;
    }
    assert pieces[..i] == pieces;
  }

  /**
   * The source's loop for the tone line: one marker from the first tone
   * colour (white when there is none), then the tone, a space after each
   * entry but the last.
   */
  method ToneLine(result: seq<CharFeedback>) returns (line: string)
    ensures line == Join(TonePieces(result))
  {
    var pieces := TonePieces(result);
    line := [];
    var i := 0;
    while i < |result|
      invariant 0 <= i <= |result|
      invariant line == Join(pieces[..i]) + (if 0 < i < |result| then " " else "")
    {
      var tone := result[i].tone;
      var colors := result[i].toneColors;
      var marker := WhiteSquare;
      if |colors| > 0 {
        var color := colors[0];
        if color == Blue {
          marker := BlueSquare;
        } else if color == Yellow {
          marker := YellowSquare;
        }
      }
      var piece := [marker] + tone;
      assert piece == pieces[i];
      line := line + piece;
      if i < |result| - 1 {
        line := line + " ";
      }
      assert pieces[..i + 1][..i] == pieces[..i];
      i := i + 1;
    }
    assert pieces[..i] == pieces;
  }

  /** The source's loop for the character line: marked characters, no separator. */
  method ChineseLine(result: seq<CharFeedback>) returns (line: string)
    ensures line == Concat(ChinesePieces(result))
  {
    var pieces := ChinesePieces(result);
    line := [];
    var i := 0;
    while i < |result|
      invariant 0 <= i <= |result|
      invariant line == Concat(pieces[..i])
    {
      var color := result[i].chineseColor;
      if color == Blue {
        line := line + [BlueSquare, result[i].chinese];
      } else if color == Yellow {
        line := line + [YellowSquare, result[i].chinese];
      } else {
        line := line + [WhiteSquare, result[i].chinese];
      }
      assert pieces[..i + 1][..i] == pieces[..i];
      i := i + 1;
    }
    assert pieces[..i] == pieces;
  }

  /** The console's rendering of a guess, as the lines it would print. */
  method DisplayResult(attempts: nat, guessWord: string, result: seq<CharFeedback>) returns (lines: seq<string>)
    ensures lines == Lines(attempts, guessWord, result)
  {
    var chinese := ChineseLine(result);
    var pinyin := PinyinLine(result);
    var tone := ToneLine(result);
    lines := ["\n第" + Digits(attempts) + "次猜测: " + guessWord, "中文: " + chinese, "拼音: " + pinyin, "声调: " + tone];
  }
}

=== FILE: console_game.dfy ===
/**
 * The console game: the same rules as the web session with a six-guess
 * budget, a sixteen-word bank, no history, and a yes/no answer per guess;
 * an accepted guess also produces the four lines of its rendering.
 */
module ConsoleGame {
  import opened Outcomes
  import opened Pinyin
  import opened Feedback
  import ConsoleDisplay

  const DefaultMaxAttempts: int := 6

  const WordBank: seq<string> := [
    "春夏秋冬", "东南西北", "喜怒哀乐", "酸甜苦辣",
    "梅兰竹菊", "琴棋书画", "诗词歌赋", "金木水火",
    "风花雪月", "山川河流", "日月星辰", "花鸟鱼虫",
    "青红皂白", "黑白分明", "高低不平", "大小不一"
  ]

  /** All sixteen bank words have four characters. */
  lemma WordBankWellFormed()
    ensures |WordBank| == 16
    ensures forall i | 0 <= i < |WordBank| :: |WordBank[i]| == 4
  {
  }

  datatype Game = Game(
    maxAttempts: int,
    attempts: nat,
    targetWord: string,
    targetInfo: seq<CharacterInfo>,
    gameOver: bool,
    won: bool)

  /** A freshly constructed game with the default budget of six guesses. */
  function NewGame(): (g: Game)
    ensures g.maxAttempts == 6
    ensures g.attempts == 0 && !g.gameOver && !g.won && g.targetInfo == []
  {
    Game(DefaultMaxAttempts, 0, [], [], false, false)
  }

  /** Starts a game on the bank word at index `pick` (the random choice is a parameter). */
  function StartNewGame(g: Game, pick: nat, lookup: Lookup): (g': Game)
    requires pick < |WordBank|
    ensures g'.targetWord == WordBank[pick]
    ensures ProcessWord(g'.targetWord, lookup) == Ok(g'.targetInfo) && |g'.targetInfo| == 4
    ensures g'.attempts == 0 && !g'.gameOver && !g'.won
    ensures g'.maxAttempts == g.maxAttempts
  {
    WordBankWellFormed();
    var word := WordBank[pick];
    g.(targetWord := word, targetInfo := ProcessWord(word, lookup).value, attempts := 0, gameOver := false, won := false)
  }

  /** The game after a guess, the yes/no answer, and the lines shown for it (none when it was refused). */
  datatype Step = Step(game: Game, correct: bool, shown: seq<string>)

  /**
   * One guess: refused without counting when the game is over or the word
   * is not four characters long; otherwise counted, shown, and checked for a
   * win before the budget is checked. Only a win answers true.
   */
  function MakeGuess(g: Game, word: string, lookup: Lookup): (s: Step)
    ensures g.gameOver || |word| != 4 ==> s == Step(g, false, [])
    ensures !g.gameOver && |word| == 4 ==>
      && s.game.attempts == g.attempts + 1
      && s.game.maxAttempts == g.maxAttempts
      && s.game.targetWord == g.targetWord && s.game.targetInfo == g.targetInfo
    ensures s.correct <==> !g.gameOver && |word| == 4 && |g.targetInfo| >= 4 && word == g.targetWord
    ensures s.correct ==> s.game.won && s.game.gameOver
    ensures !s.correct ==> s.game.won == g.won
    ensures !s.correct && !g.gameOver && |word| == 4 && |g.targetInfo| >= 4 ==>
      (s.game.gameOver <==> s.game.attempts >= g.maxAttempts)
    ensures s.shown != [] <==> !g.gameOver && |word| == 4 && |g.targetInfo| >= 4
    ensures s.shown == [] ==> s.game.gameOver == g.gameOver
    ensures s.shown != [] ==>
      s.shown == ConsoleDisplay.Lines(s.game.attempts, word, Compare(Console, ProcessWord(word, lookup).value, g.targetInfo))
  {
    if g.gameOver then Step(g, false, [])
    else if |word| != 4 then Step(g, false, [])
    else
      var counted := g.(attempts := g.attempts + 1);
      var info := ProcessWord(word, lookup).value;
      if |g.targetInfo| < |info| then Step(counted, false, [])
      else
        var result := Compare(Console, info, g.targetInfo);
        var shown := ConsoleDisplay.Lines(counted.attempts, word, result);
        if word == g.targetWord then Step(counted.(won := true, gameOver := true), true, shown)
        else if counted.attempts >= g.maxAttempts then Step(counted.(gameOver := true), false, shown)
        else Step(counted, false, shown)
  }

  /** The state every started game keeps, for a fixed dictionary. */
  ghost predicate Valid(g: Game, lookup: Lookup) {
    && g.maxAttempts >= 1
    && g.targetWord in WordBank
    && ProcessWord(g.targetWord, lookup) == Ok(g.targetInfo)
    && g.attempts <= g.maxAttempts
    && (!g.gameOver ==> g.attempts < g.maxAttempts)
    && (g.won ==> g.gameOver)
    && (g.gameOver && !g.won ==> g.attempts == g.maxAttempts)
  }

  lemma MakeGuessPreservesValid(g: Game, word: string, lookup: Lookup)
    requires Valid(g, lookup)
    ensures Valid(MakeGuess(g, word, lookup).game, lookup)
  {
  }

  /**
   * What one guess does to the game, without its rendering: the comparison
   * can only fail when the target has fewer than four records, and then the
   * attempt has already been counted.
   */
  function Advance(g: Game, word: string): Game {
    if g.gameOver || |word| != 4 then g
    else
      var counted := g.(attempts := g.attempts + 1);
      if |g.targetInfo| < 4 then counted
      else if word == g.targetWord then counted.(won := true, gameOver := true)
      else if counted.attempts >= g.maxAttempts then counted.(gameOver := true)
      else counted
  }

  /** The game a guess leaves behind is the one `Advance` describes. */
  lemma MakeGuessAdvances(g: Game, word: string, lookup: Lookup)
    ensures MakeGuess(g, word, lookup).game == Advance(g, word)
  {
  }

  /** The game after a sequence of guesses. */
  function Play(g: Game, words: seq<string>): Game
    decreases |words|
  {
    if |words| == 0 then g else Play(Advance(g, words[0]), words[1..])
  }

  /** From a started game, no sequence of guesses takes the attempt count past the budget. */
  lemma {:induction false} AttemptsNeverExceedMax(g: Game, pick: nat, words: seq<string>, lookup: Lookup)
    requires pick < |WordBank|
    requires g.maxAttempts >= 1
    ensures var end := Play(StartNewGame(g, pick, lookup), words);
      Valid(end, lookup) && end.attempts <= end.maxAttempts
  {
    PlayPreservesValid(StartNewGame(g, pick, lookup), words, lookup);
  }

  lemma {:induction false} PlayPreservesValid(g: Game, words: seq<string>, lookup: Lookup)
    requires Valid(g, lookup)
    ensures Valid(Play(g, words), lookup)
    decreases |words|
  {
    if |words| > 0 {
      MakeGuessPreservesValid(g, words[0], lookup);
      MakeGuessAdvances(g, words[0], lookup);
      PlayPreservesValid(Advance(g, words[0]), words[1..], lookup);
    }
  }

  /**
   * A game of the default budget that is started and then guessed wrong six
   * times is over and lost, and a seventh guess is refused.
   */
  lemma {:induction false} SixWrongGuessesLose(pick: nat, words: seq<string>, extra: string, lookup: Lookup)
    requires pick < |WordBank|
    requires |words| == 6
    requires forall i | 0 <= i < 6 :: |words[i]| == 4 && words[i] != WordBank[pick]
    ensures var end := Play(StartNewGame(NewGame(), pick, lookup), words);
      end.gameOver && !end.won && end.attempts == 6 && MakeGuess(end, extra, lookup) == Step(end, false, [])
  {
    WrongGuessesCount(StartNewGame(NewGame(), pick, lookup), words);
  }

  /**
   * Wrong four-character guesses within the budget each count one attempt;
   * the game ends exactly when the last of them reaches the budget.
   */
  lemma {:induction false} WrongGuessesCount(g: Game, words: seq<string>)
    requires !g.gameOver && !g.won && |g.targetInfo| == 4
    requires g.attempts + |words| <= g.maxAttempts
    requires forall i | 0 <= i < |words| :: |words[i]| == 4 && words[i] != g.targetWord
    ensures var end := Play(g, words);
      && !end.won
      && end.attempts == g.attempts + |words|
      && (end.gameOver <==> |words| > 0 && end.attempts == g.maxAttempts)
      && end.maxAttempts == g.maxAttempts && end.targetWord == g.targetWord && end.targetInfo == g.targetInfo
    decreases |words|
  {
    if |words| > 0 {
      var next := Advance(g, words[0]);
      var rest := words[1..];
      assert next.attempts == g.attempts + 1 && !next.won;
      assert next.gameOver <==> next.attempts >= g.maxAttempts;
      assert forall i | 0 <= i < |rest| :: rest[i] == words[i + 1];
      if |rest| > 0 {
        WrongGuessesCount(next, rest);
      }
    }
  }
}

=== FILE: decimal.dfy ===
/**
 * Decimal rendering of non-negative integers, as done by Python's f-strings
 * and JavaScript's template literals when they interpolate a counter.
 */
module Decimal {

  predicate IsDigit(c: char) {
    '0' <= c <= '9'
  }

  function DigitChar(d: nat): (c: char)
    requires d < 10
    ensures IsDigit(c)
    ensures c as int - '0' as int == d
  {
    ('0' as int + d) as char
  }

  /** The shortest base-10 spelling of `n`. */
  function Digits(n: nat): (s: string)
    ensures |s| > 0
    ensures forall i | 0 <= i < |s| :: IsDigit(s[i])
    ensures |s| > 1 ==> s[0] != '0'
    decreases n
  {
    if n < 10 then [DigitChar(n)] else Digits(n / 10) + [DigitChar(n % 10)]
  }

  /** Reads a string of digits back as a number. */
  function Parse(s: string): nat
    requires forall i | 0 <= i < |s| :: IsDigit(s[i])
    decreases |s|
  {
    if |s| == 0 then 0
    else
      assert IsDigit(s[|s| - 1]);
      10 * Parse(s[..|s| - 1]) + (s[|s| - 1] as int - '0' as int)
  }

  /** Reading a rendered number gives the number back. */
  lemma {:induction false} ParseDigits(n: nat)
    ensures Parse(Digits(n)) == n
    decreases n
  {
    if n >= 10 {
      var s := Digits(n);
      assert s[..|s| - 1] == Digits(n / 10);
      ParseDigits(n / 10);
    }
  }

  /** Different numbers are rendered differently. */
  lemma DigitsInjective(m: nat, n: nat)
    requires Digits(m) == Digits(n)
    ensures m == n
  {
    ParseDigits(m);
    ParseDigits(n);
  }
}

=== FILE: feedback.dfy ===
/**
 * The per-position feedback for a guess: a colour for the character, one
 * colour per pinyin letter and one colour for the tone.
 *
 * The web server and the console game carry the same comparison and differ
 * only in the colour used for "absent" (gray on the web, white on the
 * console); `Variant` selects between them.
 */
module Feedback {
  import opened Pinyin

  /** The colour tags the comparison produces. */
  datatype Color = Blue | Yellow | Gray | White

  datatype Variant = Web | Console

  /** The colour of something found nowhere in the target. */
  function Absent(v: Variant): (c: Color)
    ensures c != Blue && c != Yellow
  {
    match v
    case Web => Gray
    case Console => White
  }

  /** The feedback of one guess position, mirroring the source's nested record of char/pinyin/tone. */
  datatype CharFeedback = CharFeedback(
    chinese: char, chineseColor: Color,
    pinyin: string, pinyinColors: seq<Color>,
    tone: string, toneColors: seq<Color>)

  function Pinyins(target: seq<CharacterInfo>): (ps: seq<string>)
    ensures |ps| == |target|
  {
    seq(|target|, k requires 0 <= k < |target| => target[k].pinyin)
  }

  function Tones(target: seq<CharacterInfo>): (ts: seq<string>)
    ensures |ts| == |target|
  {
    seq(|target|, k requires 0 <= k < |target| => target[k].tone)
  }

  predicate InAnyPinyin(letter: char, pinyins: seq<string>) {
    exists k | 0 <= k < |pinyins| :: letter in pinyins[k]
  }

  /** Reference definition: the colour of a guessed character at position `i`. */
  function ChineseColor(v: Variant, c: char, i: nat, target: seq<CharacterInfo>): Color
    requires i < |target|
  {
    if c == target[i].chinese then Blue
    else if c in Word(target) then Yellow
    else Absent(v)
  }

  /** Reference definition: the colour of letter `j` of the guessed pinyin at position `i`, by a direct check. */
  function LetterColor(v: Variant, letter: char, i: nat, j: nat, pinyins: seq<string>): Color {
    if i < |pinyins| && j < |pinyins[i]| && letter == pinyins[i][j] then Blue
    else if InAnyPinyin(letter, pinyins) then Yellow
    else Absent(v)
  }

  function LetterColors(v: Variant, text: string, i: nat, pinyins: seq<string>): (cs: seq<Color>)
    ensures |cs| == |text|
  {
    seq(|text|, j requires 0 <= j < |text| => LetterColor(v, text[j], i, j, pinyins))
  }

  /** Reference definition: the colour of the guessed tone at position `i`. */
  function ToneColor(v: Variant, tone: string, i: nat, target: seq<CharacterInfo>): Color
    requires i < |target|
  {
    if tone == target[i].tone then Blue
    else if tone in Tones(target) then Yellow
    else Absent(v)
  }

  function Entry(v: Variant, g: CharacterInfo, i: nat, target: seq<CharacterInfo>): CharFeedback
    requires i < |target|
  {
    CharFeedback(
      g.chinese, ChineseColor(v, g.chinese, i, target),
      g.pinyin, LetterColors(v, g.pinyin, i, Pinyins(target)),
      g.tone, [ToneColor(v, g.tone, i, target)])
  }

  /** Reference definition of the whole comparison: one entry per guess position. */
  function Compare(v: Variant, guess: seq<CharacterInfo>, target: seq<CharacterInfo>): (r: seq<CharFeedback>)
    requires |guess| <= |target|
    ensures |r| == |guess|
  {
    seq(|guess|, i requires 0 <= i < |guess| => Entry(v, guess[i], i, target))
  }

  /**
   * The source's scan for the colour of one pinyin letter: a pass over every
   * target pinyin that can only stop as blue when it reaches position `i`,
   * then a pass looking for the letter anywhere. It agrees with the direct
   * check `LetterColor`.
   */
  method ScanLetter(v: Variant, letter: char, i: nat, j: nat, pinyins: seq<string>) returns (color: Color)
    ensures color == LetterColor(v, letter, i, j, pinyins)
    ensures color == Blue <==> i < |pinyins| && j < |pinyins[i]| && letter == pinyins[i][j]
    ensures color == Yellow <==> !(i < |pinyins| && j < |pinyins[i]| && letter == pinyins[i][j]) && InAnyPinyin(letter, pinyins)
    ensures color != Blue && color != Yellow ==> color == Absent(v)
  {
    color := Absent(v);
    var found := false;
    var k := 0;
    while k < |pinyins|
      invariant 0 <= k <= |pinyins|
      invariant !found && color == Absent(v)
      invariant i < k ==> !(j < |pinyins[i]| && letter == pinyins[i][j])
    {
      if j < |pinyins[k]| && letter == pinyins[k][j] {
        if k == i {
          color := Blue;
          found := true;
          break;
        }
      }
      k := k + 1;
    }
    if !found {
      var m := 0;
      while m < |pinyins|
        invariant 0 <= m <= |pinyins|
        invariant color == Absent(v)
        invariant forall n | 0 <= n < m :: letter !in pinyins[n]
      {
        if letter in pinyins[m] {
          color := Yellow;
          break;
        }
        m := m + 1;
      }
    }
  }

  /**
   * The source's comparison loop. Its result is the reference `Compare`, and
   * each entry's colours mean what the game promises: blue for the same
   * position, yellow for elsewhere in the target, the absent colour otherwise.
   */
  method CompareWords(v: Variant, guess: seq<CharacterInfo>, target: seq<CharacterInfo>) returns (r: seq<CharFeedback>)
    requires |guess| <= |target|
    ensures r == Compare(v, guess, target)
    ensures |r| == |guess|
    ensures forall i | 0 <= i < |r| ::
      && r[i].chinese == guess[i].chinese && r[i].pinyin == guess[i].pinyin && r[i].tone == guess[i].tone
      && |r[i].pinyinColors| == |guess[i].pinyin| && |r[i].toneColors| == 1
    ensures forall i | 0 <= i < |r| ::
      && (r[i].chineseColor == Blue <==> guess[i].chinese == target[i].chinese)
      && (r[i].chineseColor == Yellow <==> guess[i].chinese != target[i].chinese && guess[i].chinese in Word(target))
      && (r[i].chineseColor !in {Blue, Yellow} ==> r[i].chineseColor == Absent(v))
    ensures forall i, j | 0 <= i < |r| && 0 <= j < |r[i].pinyinColors| ::
      && (r[i].pinyinColors[j] == Blue <==> j < |target[i].pinyin| && guess[i].pinyin[j] == target[i].pinyin[j])
      && (r[i].pinyinColors[j] == Yellow <==>
            !(j < |target[i].pinyin| && guess[i].pinyin[j] == target[i].pinyin[j])
            && InAnyPinyin(guess[i].pinyin[j], Pinyins(target)))
      && (r[i].pinyinColors[j] !in {Blue, Yellow} ==> r[i].pinyinColors[j] == Absent(v))
    ensures forall i | 0 <= i < |r| ::
      && (r[i].toneColors[0] == Blue <==> guess[i].tone == target[i].tone)
      && (r[i].toneColors[0] == Yellow <==> guess[i].tone != target[i].tone && guess[i].tone in Tones(target))
      && (r[i].toneColors[0] !in {Blue, Yellow} ==> r[i].toneColors[0] == Absent(v))
  {
    var chars := Word(target);
    var pinyins := Pinyins(target);
    var tones := Tones(target);
    r := [];
    var i := 0;
    while i < |guess|
      invariant 0 <= i <= |guess|
      invariant |r| == i
      invariant forall n | 0 <= n < i :: r[n] == Entry(v, guess[n], n, target)
    {
      var g := guess[i];
      var chineseColor := White;
      if g.chinese == chars[i] {
        chineseColor := Blue;
      } else if g.chinese in chars {
        chineseColor := Yellow;
      } else if v == Web {
        chineseColor := Gray;
      }

      var letterColors := [];
      var j := 0;
      while j < |g.pinyin|
        invariant 0 <= j <= |g.pinyin|
        invariant letterColors == LetterColors(v, g.pinyin[..j], i, pinyins)
      {
        var c := ScanLetter(v, g.pinyin[j], i, j, pinyins);
        letterColors := letterColors + [c];
        j := j + 1;
      }
      assert g.pinyin[..j] == g.pinyin;

      var toneColor;
      if g.tone == tones[i] {
        toneColor := Blue;
      } else if g.tone in tones {
        toneColor := Yellow;
      } else {
        toneColor := Absent(v);
      }

      r := r + [CharFeedback(g.chinese, chineseColor, g.pinyin, letterColors, g.tone, [toneColor])];
      i := i + 1;
    }
  }

  /**
   * Position `i` is judged from the guess at `i` and the target alone: the
   * other guessed characters, and how often a character repeats, play no part.
   */
  lemma EntryIsLocal(v: Variant, g1: seq<CharacterInfo>, g2: seq<CharacterInfo>, target: seq<CharacterInfo>, i: nat)
    requires |g1| <= |target| && |g2| <= |target|
    requires i < |g1| && i < |g2| && g1[i] == g2[i]
    ensures Compare(v, g1, target)[i] == Compare(v, g2, target)[i]
  {
  }

  /**
   * A character guessed twice is marked at both positions even when the
   * target holds it only once: with target characters A B C D, the guess
   * A A X Y gets blue then yellow.
   */
  lemma RepeatsAreNotCounted(v: Variant, a: CharacterInfo, b: CharacterInfo, c: CharacterInfo, d: CharacterInfo, x: CharacterInfo, y: CharacterInfo)
    requires |{a.chinese, b.chinese, c.chinese, d.chinese}| == 4
    requires x.chinese != a.chinese && y.chinese != a.chinese
    ensures var r := Compare(v, [a, a, x, y], [a, b, c, d]);
      r[0].chineseColor == Blue && r[1].chineseColor == Yellow
  {
    var target := [a, b, c, d];
    assert a.chinese == Word(target)[0];
  }

  /** The console copy never produces gray: whatever is absent stays white. */
  lemma ConsoleAbsentIsWhite(guess: seq<CharacterInfo>, target: seq<CharacterInfo>)
    requires |guess| <= |target|
    ensures forall i | 0 <= i < |guess| ::
      var e := Compare(Console, guess, target)[i];
      && (e.chineseColor in {Blue, Yellow, White})
      && (forall j | 0 <= j < |e.pinyinColors| :: e.pinyinColors[j] in {Blue, Yellow, White})
      && (e.toneColors == [Blue] || e.toneColors == [Yellow] || e.toneColors == [White])
  {
  }

  predicate AllBlue(r: seq<CharFeedback>) {
    forall i | 0 <= i < |r| ::
      && r[i].chineseColor == Blue
      && (forall j | 0 <= j < |r[i].pinyinColors| :: r[i].pinyinColors[j] == Blue)
      && r[i].toneColors == [Blue]
  }

  /** Guessing the target itself colours every character, letter and tone blue. */
  lemma SelfCompareAllBlue(v: Variant, info: seq<CharacterInfo>)
    ensures AllBlue(Compare(v, info, info))
  {
  }

  /** All character colours are blue exactly when the guessed word is the target word. */
  lemma {:induction false} CharsBlueIffSameWord(v: Variant, guess: seq<CharacterInfo>, target: seq<CharacterInfo>)
    requires |guess| == |target|
    ensures (forall i | 0 <= i < |guess| :: Compare(v, guess, target)[i].chineseColor == Blue) <==> Word(guess) == Word(target)
  {
    var r := Compare(v, guess, target);
    if forall i | 0 <= i < |guess| :: r[i].chineseColor == Blue {
      forall i | 0 <= i < |guess|
        ensures Word(guess)[i] == Word(target)[i]
      {
        assert r[i].chineseColor == Blue;
      }
    }
    if Word(guess) == Word(target) {
      forall i | 0 <= i < |guess|
        ensures r[i].chineseColor == Blue
      {
        assert Word(guess)[i] == Word(target)[i];
      }
    }
  }
}

=== FILE: outcomes.dfy ===
/** Failure-carrying wrappers shared by the whole model. */
module Outcomes {

  /** A value that may be missing (Python's `None`, JavaScript's `undefined`). */
  datatype Option<+T> = None | Some(value: T)

  /** The outcome of an operation that can fail with an error of type `E`. */
  datatype Result<+T, +E> = Ok(value: T) | Err(error: E)
}

=== FILE: pinyin.dfy ===
/**
 * Per-character pronunciation data shared by the web server and the console
 * game: the `CharacterInfo` record, tone extraction, and the split of a
 * four-character word into per-character records.
 *
 * The pinyin dictionary is a foreign library; it is a parameter here
 * (`Lookup`), so every statement holds for whatever readings it returns.
 */
module Pinyin {
  import opened Outcomes

  /** One character of a word with its toneless pinyin and its tone digit ("" when toneless). */
  datatype CharacterInfo = CharacterInfo(chinese: char, pinyin: string, tone: string)

  /** The two output styles requested from the dictionary: plain letters, or letters followed by a tone digit. */
  datatype Style = Normal | Tone3

  /**
   * The dictionary: for a character and a style, a list of readings per
   * character, each a list of alternatives (only the first is ever used).
   */
  type Lookup = (char, Style) -> seq<seq<string>>

  datatype ProcessError = NotFourCharacters

  predicate IsToneDigit(c: char) {
    '1' <= c <= '4'
  }

  predicate NoToneDigit(s: string) {
    forall k | 0 <= k < |s| :: !IsToneDigit(s[k])
  }

  /** A valid tone field: empty, or exactly one digit from 1 to 4. */
  predicate IsTone(t: string) {
    t == [] || (|t| == 1 && IsToneDigit(t[0]))
  }

  /** The first character of `s` in the range '1'..'4', as a one-character string, or "" when there is none. */
  function ExtractTone(s: string): (r: string)
    ensures IsTone(r)
    ensures r == [] <==> NoToneDigit(s)
    ensures r != [] ==> exists k | 0 <= k < |s| :: s[k] == r[0] && NoToneDigit(s[..k])
    decreases |s|
  {
    if |s| == 0 then []
    else if IsToneDigit(s[0]) then
      assert NoToneDigit(s[..0]);
      [s[0]]
    else
      var r := ExtractTone(s[1..]);
      if r == [] then r
      else
        var k :| 0 <= k < |s[1..]| && s[1..][k] == r[0] && NoToneDigit(s[1..][..k]);
        assert s[..k + 1] == [s[0]] + s[1..][..k];
        r
  }

  /** The tone found is the one that comes first: anything after it is irrelevant. */
  lemma {:induction false} ExtractToneFirst(prefix: string, d: char, rest: string)
    requires NoToneDigit(prefix)
    requires IsToneDigit(d)
    ensures ExtractTone(prefix + [d] + rest) == [d]
    decreases |prefix|
  {
    var s := prefix + [d] + rest;
    if |prefix| > 0 {
      assert !IsToneDigit(s[0]);
      assert s[1..] == prefix[1..] + [d] + rest;
      ExtractToneFirst(prefix[1..], d, rest);
    }
  }

  /** Extracting again from an extracted tone changes nothing. */
  lemma ExtractToneIdempotent(s: string)
    ensures ExtractTone(ExtractTone(s)) == ExtractTone(s)
  {
    var r := ExtractTone(s);
    if r != [] {
      assert r == [] + [r[0]] + [];
      ExtractToneFirst([], r[0], []);
    }
  }

  /** The first alternative of the first reading, or "" when the dictionary returned nothing. */
  function FirstReading(readings: seq<seq<string>>): string {
    if |readings| > 0 && |readings[0]| > 0 then readings[0][0] else ""
  }

  /** The pronunciation record of one character. */
  function CharacterInfoOf(c: char, lookup: Lookup): (info: CharacterInfo)
    ensures info.chinese == c
    ensures IsTone(info.tone)
    ensures info.pinyin == FirstReading(lookup(c, Normal))
    ensures info.tone == ExtractTone(FirstReading(lookup(c, Tone3)))
  {
    CharacterInfo(c, FirstReading(lookup(c, Normal)), ExtractTone(FirstReading(lookup(c, Tone3))))
  }

  /** A numbered reading such as "hao3" gives the character the tone written after its letters. */
  lemma CharacterToneFromReading(c: char, lookup: Lookup, letters: string, d: char, rest: string)
    requires FirstReading(lookup(c, Tone3)) == letters + [d] + rest
    requires NoToneDigit(letters) && IsToneDigit(d)
    ensures CharacterInfoOf(c, lookup).tone == [d]
  {
    ExtractToneFirst(letters, d, rest);
  }

  /** A reading without a tone digit (the neutral tone, or no reading at all) gives the empty tone. */
  lemma CharacterToneNeutral(c: char, lookup: Lookup)
    requires NoToneDigit(FirstReading(lookup(c, Tone3)))
    ensures CharacterInfoOf(c, lookup).tone == []
  {
  }

  /** The characters of a list of records, in order. */
  function Word(infos: seq<CharacterInfo>): (w: string)
    ensures |w| == |infos|
  {
    seq(|infos|, i requires 0 <= i < |infos| => infos[i].chinese)
  }

  /** Splits a word into per-character records; only a four-character word is accepted. */
  function ProcessWord(word: string, lookup: Lookup): (r: Result<seq<CharacterInfo>, ProcessError>)
    ensures r.Ok? <==> |word| == 4
    ensures r.Err? ==> r.error == NotFourCharacters
    ensures r.Ok? ==> Word(r.value) == word
    ensures r.Ok? ==> forall i | 0 <= i < 4 :: IsTone(r.value[i].tone)
  {
    if |word| != 4 then Err(NotFourCharacters)
    else Ok(seq(4, i requires 0 <= i < 4 => CharacterInfoOf(word[i], lookup)))
  }
}

=== FILE: web_game.dfy ===
/**
 * The web server's game session: the word bank, starting a game, and the
 * checks a guess goes through (game over, length, attempt count, win,
 * running out of attempts), in the order the server performs them.
 */
module WebGame {
  import opened Outcomes
  import opened Pinyin
  import opened Feedback

  const DefaultMaxAttempts: int := 15

  const WordBank: seq<string> := [
    "黑人牙膏", "鸽鸽加油", "奶茶续命",
    "熬夜冠军", "秃头青年",
    "吃瓜群众", "网络冲浪",
    "游戏人生", "追番狂魔", "夹带私货", "钱包见底",
    "工资到账",
    "摸鱼达人", "划水专家", "午休冠军", "迟到常客",
    "早起困难", "周一恐惧",
    "华南理工", "易烊千玺", "数学学院", "理辩理辩",
    "五山校区", "建筑老八", "食堂排队", "民国宿舍"
  ]

  /** Every bank word has four characters, so splitting a target never fails. */
  lemma WordBankWellFormed()
    ensures |WordBank| == 26
    ensures forall i | 0 <= i < |WordBank| :: |WordBank[i]| == 4
  {
  }

  /** One line of the guess history. */
  datatype GuessRecord = GuessRecord(word: string, result: seq<CharFeedback>, attempt: int)

  datatype Game = Game(
    maxAttempts: int,
    attempts: int,
    targetWord: string,
    targetInfo: seq<CharacterInfo>,
    gameOver: bool,
    won: bool,
    history: seq<GuessRecord>)

  /** A freshly constructed session, before any game is started. */
  function NewGame(maxAttempts: int): (g: Game)
    ensures g.maxAttempts == maxAttempts
    ensures g.attempts == 0 && !g.gameOver && !g.won
    ensures g.targetWord == [] && g.targetInfo == [] && g.history == []
  {
    Game(maxAttempts, 0, [], [], false, false, [])
  }

  /**
   * Starts a game on the bank word at index `pick` (the random choice is a
   * parameter): everything but the attempt budget is reset.
   */
  function StartNewGame(g: Game, pick: nat, lookup: Lookup): (g': Game)
    requires pick < |WordBank|
    ensures g'.targetWord == WordBank[pick]
    ensures ProcessWord(g'.targetWord, lookup) == Ok(g'.targetInfo) && |g'.targetInfo| == 4
    ensures g'.attempts == 0 && !g'.gameOver && !g'.won && g'.history == []
    ensures g'.maxAttempts == g.maxAttempts
  {
    WordBankWellFormed();
    var word := WordBank[pick];
    var info := ProcessWord(word, lookup);
    g.(targetWord := word, targetInfo := info.value, attempts := 0, gameOver := false, won := false, history := [])
  }

  /** Why a guess was refused (the server answers with success = false). */
  datatype Rejection = GameAlreadyOver | WrongLength | ProcessingFailed

  /** The server's answer to a guess. */
  datatype Response =
    | Rejected(reason: Rejection)
    | Won(result: seq<CharFeedback>, attempts: int, maxAttempts: int)
    | Lost(result: seq<CharFeedback>, targetWord: string, targetDetails: seq<CharacterInfo>, attempts: int, maxAttempts: int)
    | Going(result: seq<CharFeedback>, attempts: int, maxAttempts: int, remaining: int)
  {
    predicate Success() { !Rejected? }
    predicate GameOver() { Won? || Lost? }
  }

  datatype Step = Step(game: Game, response: Response)

  /**
   * One guess. A finished game and a word of the wrong length are refused
   * before the attempt is counted; then the attempt counts, even if the
   * comparison fails (only possible before a game was started); a correct
   * word wins before the budget is checked.
   */
  function MakeGuess(g: Game, word: string, lookup: Lookup): (s: Step)
    ensures g.gameOver ==> s == Step(g, Rejected(GameAlreadyOver))
    ensures !g.gameOver && |word| != 4 ==> s == Step(g, Rejected(WrongLength))
    ensures !g.gameOver && |word| == 4 ==>
      && s.game.attempts == g.attempts + 1
      && s.game.maxAttempts == g.maxAttempts
      && s.game.targetWord == g.targetWord && s.game.targetInfo == g.targetInfo
    ensures s.response.Success() <==> !g.gameOver && |word| == 4 && |g.targetInfo| >= 4
    ensures !g.gameOver && |word| == 4 && !s.response.Success() ==> s.response == Rejected(ProcessingFailed)
    ensures !s.response.Success() ==> s.game.history == g.history && s.game.won == g.won && s.game.gameOver == g.gameOver
    ensures s.response.GameOver() <==> s.game.gameOver && !g.gameOver
    ensures s.response.Success() ==>
      && ProcessWord(word, lookup).Ok?
      && s.response.result == Compare(Web, ProcessWord(word, lookup).value, g.targetInfo)
      && s.game.history == g.history + [GuessRecord(word, s.response.result, s.game.attempts)]
      && s.response.attempts == s.game.attempts
      && s.response.maxAttempts == g.maxAttempts
    ensures s.response.Won? <==> s.response.Success() && word == g.targetWord
    ensures s.response.Won? ==> s.game.won && s.game.gameOver
    ensures s.response.Lost? ==>
      && s.game.gameOver && s.game.won == g.won
      && s.game.attempts >= g.maxAttempts
      && s.response.targetWord == g.targetWord && s.response.targetDetails == g.targetInfo
    ensures s.response.Going? ==>
      && !s.game.gameOver && s.game.won == g.won
      && s.response.remaining == g.maxAttempts - s.game.attempts > 0
  {
    if g.gameOver then Step(g, Rejected(GameAlreadyOver))
    else if |word| != 4 then Step(g, Rejected(WrongLength))
    else
      var counted := g.(attempts := g.attempts + 1);
      var info := ProcessWord(word, lookup).value;
      if |g.targetInfo| < |info| then
        Step(counted, Rejected(ProcessingFailed))
      else
        var result := Compare(Web, info, g.targetInfo);
        var recorded := counted.(history := g.history + [GuessRecord(word, result, counted.attempts)]);
        if word == g.targetWord then
          Step(recorded.(won := true, gameOver := true), Won(result, recorded.attempts, g.maxAttempts))
        else if recorded.attempts >= g.maxAttempts then
          Step(recorded.(gameOver := true), Lost(result, g.targetWord, g.targetInfo, recorded.attempts, g.maxAttempts))
        else
          Step(recorded, Going(result, recorded.attempts, g.maxAttempts, g.maxAttempts - recorded.attempts))
  }

  /** The state every started game keeps, for a fixed dictionary. */
  ghost predicate Valid(g: Game, lookup: Lookup) {
    && g.maxAttempts >= 1
    && g.targetWord in WordBank
    && ProcessWord(g.targetWord, lookup) == Ok(g.targetInfo)
    && 0 <= g.attempts <= g.maxAttempts
    && (!g.gameOver ==> g.attempts < g.maxAttempts)
    && (g.won ==> g.gameOver)
    && (g.gameOver && !g.won ==> g.attempts == g.maxAttempts)
    && |g.history| == g.attempts
  }

  lemma StartNewGameValid(g: Game, pick: nat, lookup: Lookup)
    requires pick < |WordBank|
    requires g.maxAttempts >= 1
    ensures Valid(StartNewGame(g, pick, lookup), lookup)
  {
  }

  /**
   * The game the new-game route creates and stores: a session with the
   * default budget of fifteen guesses, started at once.
   */
  function RouteNewGame(pick: nat, lookup: Lookup): (g: Game)
    requires pick < |WordBank|
    ensures Valid(g, lookup)
    ensures g.maxAttempts == 15 && g.attempts == 0 && !g.gameOver && g.history == []
    ensures g.targetWord == WordBank[pick]
  {
    StartNewGameValid(NewGame(DefaultMaxAttempts), pick, lookup);
    StartNewGame(NewGame(DefaultMaxAttempts), pick, lookup)
  }

  lemma MakeGuessPreservesValid(g: Game, word: string, lookup: Lookup)
    requires Valid(g, lookup)
    ensures Valid(MakeGuess(g, word, lookup).game, lookup)
  {
  }

  /** The session after a sequence of guesses. */
  function Play(g: Game, words: seq<string>, lookup: Lookup): Game
    decreases |words|
  {
    if |words| == 0 then g else Play(MakeGuess(g, words[0], lookup).game, words[1..], lookup)
  }

  /** Whatever is guessed after a game starts, the attempt count never passes the budget. */
  lemma {:induction false} AttemptsNeverExceedMax(g: Game, pick: nat, words: seq<string>, lookup: Lookup)
    requires pick < |WordBank|
    requires g.maxAttempts >= 1
    ensures var end := Play(StartNewGame(g, pick, lookup), words, lookup);
      Valid(end, lookup) && end.attempts <= end.maxAttempts
  {
    StartNewGameValid(g, pick, lookup);
    PlayPreservesValid(StartNewGame(g, pick, lookup), words, lookup);
  }

  lemma {:induction false} PlayPreservesValid(g: Game, words: seq<string>, lookup: Lookup)
    requires Valid(g, lookup)
    ensures Valid(Play(g, words, lookup), lookup)
    decreases |words|
  {
    if |words| > 0 {
      MakeGuessPreservesValid(g, words[0], lookup);
      PlayPreservesValid(MakeGuess(g, words[0], lookup).game, words[1..], lookup);
    }
  }

  /** Once a game is over, no sequence of guesses changes anything. */
  lemma {:induction false} OverIsFinal(g: Game, words: seq<string>, lookup: Lookup)
    requires g.gameOver
    ensures Play(g, words, lookup) == g
    decreases |words|
  {
    if |words| > 0 {
      OverIsFinal(g, words[1..], lookup);
    }
  }

  /**
   * In a started game, a guess wins exactly when every character of its
   * feedback is blue, and a winning feedback is blue everywhere.
   */
  lemma {:induction false} WinIffAllCharactersBlue(g: Game, word: string, lookup: Lookup)
    requires Valid(g, lookup)
    requires MakeGuess(g, word, lookup).response.Success()
    ensures var r := MakeGuess(g, word, lookup).response;
      r.Won? <==> forall i | 0 <= i < |r.result| :: r.result[i].chineseColor == Blue
    ensures var r := MakeGuess(g, word, lookup).response;
      r.Won? ==> AllBlue(r.result)
  {
    var info := ProcessWord(word, lookup).value;
    CharsBlueIffSameWord(Web, info, g.targetInfo);
    if word == g.targetWord {
      SelfCompareAllBlue(Web, g.targetInfo);
    }
  }
}
